=== FILE: README.md ===
# Band membership and invitations of playliter-api-go, in Dafny

This project models the band authorization workflow of the playliter API. An account creates a
band and becomes its owner. The owner, or an admin member, invites other accounts. An invited
account accepts, which makes it a plain member, or denies. The owner or an admin promotes,
demotes and expels members and edits the band. Only the owner deletes the band, and only the
owner and members may read it.

Every modelled handler of the band controller is a pure function. It takes the store, an
environment, the caller and the path ids and body, and returns a typed result with the store it
leaves behind:

- **Store** (`store.dfy`). There are three tables, bands, members and band requests, each a
  sequence of rows in insertion order. There is also the set of existing account ids, and one
  auto-increment counter per table, starting at 1. A loaded band is its row plus the member
  rows with its id, like gorm's preloaded `Members` association.
- **Environment**. `now` is the time stamped on a new member row. `failing` is the set of
  store calls that fail with `StoreFailure`. `inviteLookup` says whether loading an invitation
  by id finds only pending invitations or any.
- **Errors**. `NotFound`, `Forbidden`, `BadRequest` and `StoreFailure` stand for the 404, 403,
  400 and 500 responses. The controller tells a missing row from another store error by looking
  for "not found" in the error text; the model uses the error kinds directly.
- **Caller**. This is `Option<Id>`. `None` is an unknown or unauthenticated account, and every
  handler answers it with `Forbidden`.
- **Roles and statuses**. These are closed variants. The request body's role and answer strings
  are parsed once (`ParseRole`, `ParseDecision`), and anything else is a bad request.

The modules follow the program's layers:

| module | contents |
|---|---|
| `Results`, `Seqs` | result types; table helpers (`WHERE`, `First`, save by primary key) |
| `BandModels` | row types, roles, statuses, parsing |
| `BandStore` | tables and the band, member and account store calls |
| `BandRequestRepo` | the band request repository |
| `BandRequestUseCase` | the band request use case |
| `Membership` | `isBandMember`, `isBandAdmin` and the two access predicates built on them |
| `BandController` | the eight handlers |
| `PathParams` | parsing of numeric path ids |
| `RequireLoggedIn` | the removal of a leading "bearer " from the authorization header |
| `BandInvariants` | the store invariant and its preservation by every handler |
| `BandWorkflow` | arbitrary command sequences, and the invariant over every reachable store |
| `BandScenarios` | round trips and compositions of handlers |
| `Counterexamples` | concrete runs where a condition of the invariant proof is dropped, and runs showing the quirks of the member handlers |

**The invariant.** `Inv` holds in every store reachable from the empty store when the handlers
run one after another:

- ids are below their counters and increase along each table;
- the owner of a band never has a member row in it;
- an account has at most one member row per band;
- an account has at most one pending invitation per band;
- a pending invitation never targets the owner or a member of its band.

The proof needs three conditions on the environment (`SafeEnv`). Each is needed, and
`Counterexamples` breaks the invariant without each one:

- Loading an invitation by id finds only pending invitations. The source of that lookup is not
  part of this model, so this is a stated assumption.
- The pending-invitation lookup that guards `Invite` does not fail. `InviteExists` turns a
  failure into "no invitation", and a duplicate invitation follows.
- The second write of an accepted invitation does not fail. The member row is written first,
  and nothing undoes it when the invitation write fails.

**Quirks of the code.**

- Re-inviting a member or the owner, re-inviting while an invitation is pending, and answering
  an invitation for another band or account are all reported as `BadRequest`. They are not
  reported as a conflict or as forbidden.
- `InviteExists` discards the repository's error.
- `RespondInvite` never checks that the invitation is still pending.
- `UpdateMember` and `ExpelMember` load the member row by its own id and never check that it
  belongs to the band in the path. So the owner or an admin of one band can promote or expel
  the members of any band (`Counterexamples.CrossBandPromotion`, `Counterexamples.CrossBandExpel`).
- Deleting a band keeps its member rows and its invitations.
- An admin may demote their own row. Repeating that request is then Forbidden, so a role change
  repeats to the same store but not always to the same answer (`Counterexamples.AdminDemotesSelf`).

The model follows the code in each case.

## Model

| member | source | states |
|---|---|---|
| Membership.IsBandMember | presentation/controllers/band/band_controller.go:620-627 | true exactly when some member row has the account's id |
| Membership.IsBandAdmin | presentation/controllers/band/band_controller.go:629-636 | true exactly when some member row has the account's id and the admin role; an admin is always a member |
| Membership.CanView | presentation/controllers/band/band_controller.go:125-128 | the owner or any member may read a band |
| Membership.HasAuthority | presentation/controllers/band/band_controller.go:171 | authority means owner or admin member; a plain member or a stranger has none; authority implies read access |
| BandModels.ParseRole | presentation/controllers/band/band_controller.go:520-523 | only "admin" and "member" are roles, and "admin" alone gives the admin role |
| BandModels.ParseDecision | presentation/controllers/band/band_controller.go:356-359 | only "accepted" and "denied" are answers, and an answer never restores the pending status |
| BandStore.FindBand | presentation/controllers/band/band_controller.go:113-122 | a band is found exactly when its row exists and the lookup does not fail; it comes with exactly the member rows of that band; otherwise NotFound or StoreFailure |
| BandStore.FindMember | presentation/controllers/band/band_controller.go:491-500 | a member row is found by its own id, whatever its band; otherwise NotFound or StoreFailure |
| BandStore.CreateBand | presentation/controllers/band/band_controller.go:75-88 | inserts one row under the next id, owned by the given account, with the default logo when none is given; a failing insert changes nothing |
| BandStore.CreateMember | presentation/controllers/band/band_controller.go:363-375 | inserts exactly one member row under the next id; a failing insert changes nothing |
| BandRequestRepo.Create | data/repositories/band/band_request_repository.go:24-26 | the request is stored unchanged except for its new id, appended to the table; a failing insert changes nothing |
| BandRequestRepo.FindByAccountAndBand | data/repositories/band/band_request_repository.go:28-37 | a found request has the given band, the given account and the pending status; one is found exactly when such a request exists; otherwise NotFound, or StoreFailure when the query fails |
| BandRequestRepo.FindById | data/usecases/band/band_request_usecase.go:31 | the lookup the use case calls, which the repository does not define: found exactly when the lookup does not fail and a request with that id passes the environment's status filter; otherwise NotFound, or StoreFailure when the lookup fails |
| BandRequestRepo.Update | data/usecases/band/band_request_usecase.go:43 | the save the use case calls, which the repository does not define: overwrites exactly the rows with the request's id and changes nothing else; a failing save is StoreFailure with nothing changed |
| BandRequestRepo.CreateThenFind | data/repositories/band/band_request_repository.go:24-37 | after a pending request for (band, account) is created, the pending filter finds one |
| BandRequestUseCase.Create | data/usecases/band/band_request_usecase.go:26-28 | forwards to the repository: the request gets the next id and is appended, or the store failure is returned with nothing changed |
| BandRequestUseCase.FindById | data/usecases/band/band_request_usecase.go:30-32 | found exactly when the lookup does not fail and a request with that id, visible to the lookup's status filter, is in the table; then it is such a request, pending under the pending-only lookup; otherwise NotFound, or StoreFailure when the lookup fails |
| BandRequestUseCase.InviteExists | data/usecases/band/band_request_usecase.go:34-40 | true exactly when the lookup does not fail and a pending request for (band, account) exists; a failing lookup reads as false |
| BandRequestUseCase.Update | data/usecases/band/band_request_usecase.go:42-44 | overwrites exactly the rows with the request's id and changes nothing else in the store (accounts, bands, members, counters); a failing save changes nothing |
| BandController.Create | presentation/controllers/band/band_controller.go:56-92 | an anonymous caller is Forbidden; a failed insert is StoreFailure with nothing changed; otherwise the new band is owned by the caller, has no member, gets the next id, and keeps the given logo or the default |
| BandController.Get | presentation/controllers/band/band_controller.go:100-132 | succeeds exactly for the owner and the members of an existing band, and a stranger is Forbidden; the store never changes |
| BandController.Invite | presentation/controllers/band/band_controller.go:140-215 | Forbidden without authority; BadRequest for the owner, a member, or an account with a pending invitation; the account lookup's NotFound or StoreFailure is passed on; succeeds exactly when every check passes (`CanInvite`) and the insert works, else StoreFailure; on success exactly one new pending request for (band, account), with the store otherwise unchanged; every error leaves the store unchanged |
| BandController.RespondInvite | presentation/controllers/band/band_controller.go:309-385 | only the invited account may answer an invitation, for its own band, with "accepted" or "denied" (else BadRequest); succeeds exactly when the checks pass and both writes work, and a failed write is StoreFailure; success adds one plain member row on acceptance and none on denial, and sets the invitation's status; the only error that changes the store is a failed invitation write after the member row was added |
| BandController.Merge | presentation/controllers/band/band_controller.go:436-444 | only a non-empty title, a non-empty description and a present logo overwrite; id and owner never change |
| BandController.Update | presentation/controllers/band/band_controller.go:393-453 | succeeds exactly for the owner or an admin when the save works, and a failed save is StoreFailure; the saved row is the merged row, the members are unchanged, and no other row changes |
| BandController.UpdateMember | presentation/controllers/band/band_controller.go:461-540 | Forbidden without authority over the path band; BadRequest for an unknown role; succeeds exactly when the caller has authority, the row loads, the role is known and either the role is unchanged or the save works, else StoreFailure; the same role writes nothing; otherwise only that row's role changes |
| BandController.ExpelMember | presentation/controllers/band/band_controller.go:548-602 | succeeds exactly for the owner or an admin of the path band when the member row exists and the delete works, and a failed delete is StoreFailure; exactly that row goes |
| BandController.Remove | presentation/controllers/band/band_controller.go:264-301 | succeeds exactly for the owner when the delete works, and a failed delete is StoreFailure; an admin is Forbidden; exactly the band row goes, and members and requests are kept |
| PathParams.StringToUint | presentation/controllers/band/band_controller.go:638-644 | accepted exactly when the text is a signed decimal number in the 64-bit range; the id is that number modulo 2^64; anything else is BadRequest |
| PathParams.AtoiRoundTrip | presentation/controllers/band/band_controller.go:639 | every 64-bit signed integer written in decimal is read back as itself |
| PathParams.StringToUintRoundTrip | presentation/controllers/band/band_controller.go:638-644 | a non-negative id below 2^63 written in decimal is parsed back to itself |
| PathParams.NegativeIdWraps | presentation/controllers/band/band_controller.go:643 | a negative number -n is accepted as the id 2^64 - n |
| PathParams.StringToUintRefuses | presentation/controllers/band/band_controller.go:639-642 | 2^63, the empty text, a bare sign, trailing or leading non-digits and underscores are refused |
| PathParams.StringToUintExamples | presentation/controllers/band/band_controller.go:638-644 | "42", "+7" and "007" read as 42, 7 and 7, and "-1" as the largest id |
| RequireLoggedIn.StripBearer | infra/middlewares/require_logged_in.go:19-24 | never an error; a header that starts with a spelling of "bearer " in any letter case is that prefix followed by the result, seven characters shorter; any other header is returned unchanged |
| RequireLoggedIn.LowerIsBearer | infra/middlewares/require_logged_in.go:20 | seven characters lower-case to "bearer " exactly when each is the lower or upper case letter of "bearer " |
| RequireLoggedIn.StripBearerRoundTrip | infra/middlewares/require_logged_in.go:20-21 | any case variant of "bearer " put in front of a token is removed again, and the token itself is untouched |
| RequireLoggedIn.StripBearerIgnoresCase | infra/middlewares/require_logged_in.go:20 | "Bearer ", "BEARER " and "bEaReR " are all removed |
| RequireLoggedIn.StripBearerKeeps | infra/middlewares/require_logged_in.go:20-23 | "bearer bearer x" loses one prefix only; "bearer", the empty header and a "Basic" header are kept |
| BandInvariants.EmptyStoreInv | presentation/controllers/band/band_controller.go:56-92 | the store before any band exists satisfies the invariant |
| BandInvariants.FoundBandIsUnique | presentation/controllers/band/band_controller.go:113 | under the invariant, the band found by id is the only row with that id |
| BandInvariants.ResolveKeeps | presentation/controllers/band/band_controller.go:361-382 | adding the invitee as a member and then marking the pending invitation answered keeps the invariant |
| BandInvariants.CreatePreserves | presentation/controllers/band/band_controller.go:75-88 | creating a band keeps the invariant; in particular the owner is not a member |
| BandInvariants.InvitePreserves | presentation/controllers/band/band_controller.go:176-211 | inviting keeps the invariant, including at most one pending invitation per (band, account), when the pending lookup does not fail |
| BandInvariants.RespondPreserves | presentation/controllers/band/band_controller.go:328-382 | answering an invitation keeps the invariant in a safe environment, so a member row is never duplicated |
| BandInvariants.UpdatePreserves | presentation/controllers/band/band_controller.go:435-449 | editing a band keeps the invariant |
| BandInvariants.UpdateMemberPreserves | presentation/controllers/band/band_controller.go:525-536 | changing a role keeps the invariant |
| BandInvariants.ExpelMemberPreserves | presentation/controllers/band/band_controller.go:589-599 | expelling keeps the invariant |
| BandInvariants.RemovePreserves | presentation/controllers/band/band_controller.go:288-298 | deleting a band keeps the invariant |
| BandWorkflow.ApplyPreservesInv | presentation/controllers/band/band_controller.go:56-602 | every handler call in a safe environment keeps the invariant |
| BandWorkflow.RunPreservesInv | presentation/controllers/band/band_controller.go:56-602 | any sequence of handler calls in safe environments keeps the invariant |
| BandWorkflow.ReachableStoresAreConsistent | presentation/controllers/band/band_controller.go:56-602 | in every store reachable from the empty one, no owner is a member, no (band, account) has two member rows, and no (band, account) has two pending invitations |
| BandScenarios.CreateThenGet | presentation/controllers/band/band_controller.go:56-132 | a new band has no member, not even its owner; the owner may read it and a stranger is Forbidden |
| BandScenarios.RemoveThenGet | presentation/controllers/band/band_controller.go:264-301 | after the band is deleted, reading it is NotFound |
| BandScenarios.InviteIsFound | presentation/controllers/band/band_controller.go:200-211 | the invitation just created is the one loaded by its id |
| BandScenarios.ResolvedInviteNotFound | presentation/controllers/band/band_controller.go:328-337 | under the pending-only lookup an answered invitation is NotFound, and nothing changes |
| BandScenarios.AnswerLoaded | presentation/controllers/band/band_controller.go:339-382 | an accepted invitation gives the invitee exactly one member row; a denied one leaves the member rows unchanged; either way the invitation takes the answer as its status |
| BandScenarios.InviteeHasNoRow | presentation/controllers/band/band_controller.go:177-180 | an account that passes the invitation checks has no member row in the band, before or after the invitation |
| BandScenarios.InviteThenAccept | presentation/controllers/band/band_controller.go:339-382 | invite an account that passes every check, then accept: the invitation succeeds, then one plain member row, status accepted, the new member may read the band, and a second answer is NotFound |
| BandScenarios.InviteThenDeny | presentation/controllers/band/band_controller.go:339-382 | invite an account that passes every check, then deny: the invitation succeeds, then no member row, status denied, and the invitee still may not read the band |
| BandScenarios.SecondInviteRefused | presentation/controllers/band/band_controller.go:193-198 | the first invitation of an account that passes every check succeeds, and a second one while it is pending is BadRequest and changes nothing |
| BandScenarios.PromotionGrantsAuthority | presentation/controllers/band/band_controller.go:525-536 | after a member of the band is promoted, that account has authority over the band |
| BandScenarios.UpdateMemberIdempotent | presentation/controllers/band/band_controller.go:503-539 | for any caller, repeating a role change leaves the same store; it also gives the same answer whenever the caller still has authority after the first call |
| BandScenarios.RoleChangeKeepsAuthority | presentation/controllers/band/band_controller.go:503-539 | with unique member ids, a role change keeps the caller's authority unless a non-owner caller demotes their own row in that band |
| BandScenarios.FindBandAfterSave | presentation/controllers/band/band_controller.go:446 | after a band row is saved, loading the band returns that row with the same members |
| BandScenarios.UpdateIdempotent | presentation/controllers/band/band_controller.go:435-449 | repeating a band edit gives the same result and store |
| BandScenarios.EmptyUpdateChangesNothing | presentation/controllers/band/band_controller.go:436-444 | an edit with no title, no description and no logo leaves every table as it was |
| Counterexamples.DuplicateInviteWhenLookupFails | data/usecases/band/band_request_usecase.go:34-40 | with a failing pending lookup, two invitations of the same account succeed and both stay pending |
| Counterexamples.AcceptTwiceWithAnyStatus | presentation/controllers/band/band_controller.go:328-382 | when lookup by id also finds answered invitations, accepting twice gives the account two member rows |
| Counterexamples.AcceptHalfDone | presentation/controllers/band/band_controller.go:372-382 | when the invitation write fails, the answer is StoreFailure but the member row stays while the invitation is still pending |
| Counterexamples.CrossBandPromotion | presentation/controllers/band/band_controller.go:491-506 | the owner of one band promotes a plain member of another band, who then has authority over that other band |
| Counterexamples.CrossBandExpel | presentation/controllers/band/band_controller.go:578-596 | the owner of one band expels the member of another band |
| Counterexamples.AdminDemotesSelf | presentation/controllers/band/band_controller.go:503-539 | an admin who demotes their own row gets Ok, and the same request repeated is Forbidden with the store unchanged |

## Left out

- HTTP and gin handling, JSON binding, the validator's struct tags and the `mapTo*Output` formatting are not modelled. A body that fails binding or validation is a BadRequest at the point where the handler binds it: after the caller check in `Create`, after the authority check in `Update` and `UpdateMember`, and after the band-and-account match in `RespondInvite`. `Get`, `Invite`, `Remove` and `ExpelMember` read no body.
- Concurrency is not modelled: handlers run one at a time, each as a single step, so `Inv` is proved only for sequential runs. The server serves requests in parallel, and no handler takes a lock or a transaction. Two concurrent `Invite`s of the same account can both pass the pending check (band_controller.go:194) before either inserts (208), which leaves two pending invitations. Two concurrent acceptances of one invitation can both load it while pending (328), and then each adds a member row (372).
- `validateTokenData` (the account lookup by the token's e-mail) is the caller parameter: `None` when it fails.
- JWT parsing in `RequiredLoggedIn` is left out; only `stripBearer` is modelled.
- `time.Now()` for `JoinedAt` is the environment's `now`.
- Store calls are abstract. A failure is chosen by the environment rather than produced by a database.
- `List` (paging over the caller's bands) is left out; it only defers to the store.
- The band and account use-case interfaces declare only `Create`. The controller also calls `BandUC.FindById`, `Update`, `Remove`, `InviteExists`, `CreateInvite`, `FindInviteById`, `UpdateInvite`, `CreateMember`, `FindMemberById`, `UpdateMember` and `RemoveMember`, and `AccountUc.GetAccountById`, which no interface declares. They are store calls with the obvious meaning.
- The model routes `BandUC.InviteExists`, `CreateInvite`, `FindInviteById` and `UpdateInvite` to `BandRequestUseCase.InviteExists`, `Create`, `FindById` and `Update`, and `AccountUc.GetAccountById` to `BandStore.FindAccount`.
- `AccountUc.GetAccountByEmail` (band_controller.go:612) is not modelled: it is the lookup inside `validateTokenData`, whose outcome is the caller parameter. `BandUC.FindByAccount` (236) is not modelled: only the left-out `List` calls it.
- The Go band request repository declares and defines only `Create` and `FindByAccountAndBand`. The use case nevertheless calls `Repo.FindById` (band_request_usecase.go:31) and `Repo.Update` (43).
- The model supplies both. `BandRequestRepo.FindById` is a lookup by id whose status filter is the environment's `inviteLookup`. `BandRequestRepo.Update` overwrites the row with the same id.
- gorm's soft delete, which marks a row deleted instead of removing it, is modelled as removal, since a marked row is never found again.
- `Save` of a band is an overwrite of that row. The upsert of its preloaded members and owner that gorm may also perform is not modelled.
- The deletion of a band's members, invitations, concerts and songs, left as a to-do in the source, is not performed, as in the source.
- The handlers take already parsed ids. `PathParams.StringToUint` models the parse as a separate function. In the source it comes after the caller check (`validateTokenData`) and before every store lookup.
- RequireLoggedIn.StripBearer: lower-cases ASCII letters only, where the source uses Unicode lower-casing. No other character lower-cases to a letter of "bearer ", so the comparison gives the same answer.
- Strings are sequences of characters standing for the header's and body's bytes.
- Account, auth, concert and song repositories and use cases, HMAC hashing and the start-up code are not part of this model.

=== FILE: band_controller.dfy ===
/**
 * The band handlers as decision procedures: each takes the store, the environment, the
 * authenticated caller (`None` when the token names no account), the path ids and the
 * request body, and returns its result with the store it leaves behind.
 */
module BandController {
  import opened Results
  import opened Seqs
  import opened BandModels
  import opened BandStore
  import opened Membership
  import Requests = BandRequestUseCase

  /** The body of a band creation. */
  datatype RegisterInput = RegisterInput(title: string, description: string, logo: Option<string>)

  /** The body of a band update; an empty string or a missing logo means "leave unchanged". */
  datatype UpdateInput = UpdateInput(title: string, description: string, logo: Option<string>)

  /** The caller is known, the band loads, and the caller is its owner or one of its admins. */
  predicate Authorized(s: Store, env: Env, caller: Option<Id>, bandId: Id) {
    caller.Some? && FindBand(s, env, bandId).Ok? && HasAuthority(FindBand(s, env, bandId).value, caller.value)
  }

  /** The caller is known and the band loads, but the caller is neither its owner nor an admin. */
  predicate Unauthorized(s: Store, env: Env, caller: Option<Id>, bandId: Id) {
    caller.Some? && FindBand(s, env, bandId).Ok? && !HasAuthority(FindBand(s, env, bandId).value, caller.value)
  }

  /**
   * Every check of `Invite` passes: the caller may invite, the invitee is neither the owner nor a
   * member of the band, the invitee's account exists, and no pending invitation is found.
   */
  predicate CanInvite(s: Store, env: Env, caller: Option<Id>, bandId: Id, invitedId: Id) {
    && Authorized(s, env, caller, bandId)
    && invitedId != FindBand(s, env, bandId).value.row.ownerId
    && !IsBandMember(FindBand(s, env, bandId).value.members, invitedId)
    && FindAccount(s, env, invitedId).Ok?
    && !Requests.InviteExists(s, env, invitedId, bandId)
  }

  /** Registers a band owned by the caller. */
  function Create(s: Store, env: Env, caller: Option<Id>, input: RegisterInput): (out: Response<Band>)
    ensures out.result.Ok? <==> caller.Some? && CreateBandOp !in env.failing
    ensures caller.None? ==> out.result == Err(Forbidden)
    ensures caller.Some? && CreateBandOp in env.failing ==> out.result == Err(StoreFailure)
    ensures out.result.Err? ==> out.store == s
    ensures out.result.Ok? ==>
      var b := out.result.value;
      && b.row.ownerId == caller.value
      && b.members == []
      && b.row.id == s.nextBandId
      && b.row.title == input.title && b.row.description == input.description
      && (input.logo.Some? ==> b.row.logo == input.logo.value)
      && (input.logo.None? ==> b.row.logo == DEFAULT_BAND_LOGO)
      && out.store.bands == s.bands + [b.row]
      && out.store.members == s.members
      && out.store.requests == s.requests
      && out.store.nextBandId == s.nextBandId + 1
      && out.store == s.(bands := out.store.bands, nextBandId := out.store.nextBandId)
  {
    if caller.None? then Response(Err(Forbidden), s)
    else
      var w := CreateBand(s, env, input.title, input.description, input.logo, caller.value);
      match w.result
      case Err(e) => Response(Err(e), w.store)
      case Ok(row) => Response(Ok(Band(row, [])), w.store)
  }

  /** Reads a band; only its owner and its members may. */
  function Get(s: Store, env: Env, caller: Option<Id>, bandId: Id): (out: Response<Band>)
    ensures out.store == s
    ensures caller.None? ==> out.result == Err(Forbidden)
    ensures caller.Some? && FindBand(s, env, bandId).Err? ==> out.result == FindBand(s, env, bandId)
    ensures out.result.Ok? ==>
      && caller.Some?
      && out.result == FindBand(s, env, bandId)
      && (out.result.value.row.ownerId == caller.value ||
          exists m :: m in s.members && m.bandId == bandId && m.accountId == caller.value)
    ensures caller.Some? && FindBand(s, env, bandId).Ok? ==>
      (out.result.Ok? <==> CanView(FindBand(s, env, bandId).value, caller.value))
    ensures caller.Some? && FindBand(s, env, bandId).Ok? && !CanView(FindBand(s, env, bandId).value, caller.value) ==>
      out.result == Err(Forbidden)
  {
    if caller.None? then Response(Err(Forbidden), s)
    else match FindBand(s, env, bandId)
      case Err(e) => Response(Err(e), s)
      case Ok(b) =>
        if !CanView(b, caller.value) then Response(Err(Forbidden), s)
        else Response(Ok(b), s)
  }

  /** Invites an account into a band: a pending request, created by the owner or an admin. */
  function Invite(s: Store, env: Env, caller: Option<Id>, bandId: Id, invitedId: Id): (out: Response<BandRequest>)
    ensures out.result.Err? ==> out.store == s
    ensures caller.None? ==> out.result == Err(Forbidden)
    ensures caller.Some? && FindBand(s, env, bandId).Err? ==> out.result == Err(FindBand(s, env, bandId).error)
    ensures Unauthorized(s, env, caller, bandId) ==> out.result == Err(Forbidden)
    ensures Authorized(s, env, caller, bandId) ==>
      var b := FindBand(s, env, bandId).value;
      (invitedId == b.row.ownerId || IsBandMember(b.members, invitedId)) ==> out.result == Err(BadRequest)
    ensures Authorized(s, env, caller, bandId) && FindAccount(s, env, invitedId).Err? &&
            invitedId != FindBand(s, env, bandId).value.row.ownerId &&
            !IsBandMember(FindBand(s, env, bandId).value.members, invitedId) ==>
      out.result == Err(FindAccount(s, env, invitedId).error)
    ensures (Authorized(s, env, caller, bandId) && FindAccount(s, env, invitedId).Ok? &&
             Requests.InviteExists(s, env, invitedId, bandId)) ==> out.result == Err(BadRequest)
    ensures CanInvite(s, env, caller, bandId, invitedId) && CreateInviteOp in env.failing ==>
      out.result == Err(StoreFailure)
    ensures out.result.Ok? <==> CanInvite(s, env, caller, bandId, invitedId) && CreateInviteOp !in env.failing
    ensures out.result.Ok? ==>
      var b := FindBand(s, env, bandId).value;
      && Authorized(s, env, caller, bandId)
      && invitedId != b.row.ownerId
      && !IsBandMember(b.members, invitedId)
      && invitedId in s.accounts
      && (FindPendingInviteOp !in env.failing ==> !HasPendingInvite(s.requests, bandId, invitedId))
      && out.result.value == BandRequest(s.nextRequestId, bandId, invitedId, Pending)
      && out.store.requests == s.requests + [out.result.value]
      && out.store == s.(requests := out.store.requests, nextRequestId := s.nextRequestId + 1)
  {
    if caller.None? then Response(Err(Forbidden), s)
    else match FindBand(s, env, bandId)
      case Err(e) => Response(Err(e), s)
      case Ok(b) =>
        if !HasAuthority(b, caller.value) then Response(Err(Forbidden), s)
        else if invitedId == b.row.ownerId || IsBandMember(b.members, invitedId) then Response(Err(BadRequest), s)
        else match FindAccount(s, env, invitedId)
          case Err(e) => Response(Err(e), s)
          case Ok(account) =>
            if Requests.InviteExists(s, env, account, b.row.id) then Response(Err(BadRequest), s)
            else Requests.Create(s, env, BandRequest(0, b.row.id, account, Pending))
  }

  /** The invitation `RespondInvite` loads, when it loads one. */
  function LoadedInvite(s: Store, env: Env, inviteId: Id): Result<BandRequest> {
    Requests.FindById(s, env, inviteId)
  }

  /** The invited account accepts or denies an invitation; acceptance creates a plain member. */
  function RespondInvite(s: Store, env: Env, caller: Option<Id>, bandId: Id, inviteId: Id, status: string)
    : (out: Response<()>)
    ensures caller.None? ==> out == Response(Err(Forbidden), s)
    ensures caller.Some? && LoadedInvite(s, env, inviteId).Err? ==>
      out == Response(Err(LoadedInvite(s, env, inviteId).error), s)
    ensures caller.Some? && LoadedInvite(s, env, inviteId).Ok? ==>
      var inv := LoadedInvite(s, env, inviteId).value;
      (bandId != inv.bandId || caller.value != inv.invitedId) ==> out == Response(Err(BadRequest), s)
    ensures caller.Some? && LoadedInvite(s, env, inviteId).Ok? && ParseDecision(status).None? ==>
      out == Response(Err(BadRequest), s)
    ensures caller.Some? && LoadedInvite(s, env, inviteId).Ok? && ParseDecision(status) == Some(Accepted) ==>
      var inv := LoadedInvite(s, env, inviteId).value;
      (bandId == inv.bandId && caller.value == inv.invitedId && CreateMemberOp in env.failing) ==>
        out == Response(Err(StoreFailure), s)
    ensures caller.Some? && LoadedInvite(s, env, inviteId).Ok? && ParseDecision(status).Some? ==>
      var inv := LoadedInvite(s, env, inviteId).value;
      var d := ParseDecision(status).value;
      (&& bandId == inv.bandId && caller.value == inv.invitedId
       && (d == Accepted ==> CreateMemberOp !in env.failing)
       && SaveInviteOp in env.failing) ==> out.result == Err(StoreFailure)
    ensures out.result.Ok? <==>
      && caller.Some? && LoadedInvite(s, env, inviteId).Ok? && ParseDecision(status).Some?
      && bandId == LoadedInvite(s, env, inviteId).value.bandId
      && caller.value == LoadedInvite(s, env, inviteId).value.invitedId
      && (ParseDecision(status).value == Accepted ==> CreateMemberOp !in env.failing)
      && SaveInviteOp !in env.failing
    ensures out.result.Ok? ==>
      var inv := LoadedInvite(s, env, inviteId).value;
      var d := ParseDecision(status).value;
      var joined := if d == Accepted then [Member(s.nextMemberId, bandId, caller.value, MemberRole, env.now)] else [];
      && caller.Some? && LoadedInvite(s, env, inviteId).Ok? && ParseDecision(status).Some?
      && inv.bandId == bandId && inv.invitedId == caller.value
      && out.store.members == s.members + joined
      && out.store.requests == ReplaceWhere(s.requests, (x: BandRequest) => x.id == inv.id, inv.(status := d))
      && out.store == s.(members := out.store.members, nextMemberId := s.nextMemberId + |joined|,
                         requests := out.store.requests)
    ensures out.result.Err? && out.store != s ==>
      && caller.Some? && ParseDecision(status) == Some(Accepted)
      && SaveInviteOp in env.failing
      && out.store == s.(members := s.members + [Member(s.nextMemberId, bandId, caller.value, MemberRole, env.now)],
                         nextMemberId := s.nextMemberId + 1)
  {
    if caller.None? then Response(Err(Forbidden), s)
    else match Requests.FindById(s, env, inviteId)
      case Err(e) => Response(Err(e), s)
      case Ok(inv) =>
        if bandId != inv.bandId || caller.value != inv.invitedId then Response(Err(BadRequest), s)
        else match ParseDecision(status)
          case None => Response(Err(BadRequest), s)
          case Some(d) =>
            var joined :=
              if d == Accepted then CreateMember(s, env, inv.bandId, inv.invitedId, MemberRole, env.now)
              else Response(Ok(Member(0, 0, 0, MemberRole, 0)), s);
            if joined.result.Err? then Response(Err(joined.result.error), s)
            else
              var saved := Requests.Update(joined.store, env, inv.(status := d));
              if saved.result.Err? then Response(Err(saved.result.error), saved.store)
              else Response(Ok(()), saved.store)
  }

  /** The band row after a partial update: only non-empty strings and a present logo overwrite. */
  function Merge(row: BandRow, input: UpdateInput): (r: BandRow)
    ensures r.id == row.id && r.ownerId == row.ownerId
    ensures input.title != "" ==> r.title == input.title
    ensures input.title == "" ==> r.title == row.title
    ensures input.description != "" ==> r.description == input.description
    ensures input.description == "" ==> r.description == row.description
    ensures input.logo.Some? ==> r.logo == input.logo.value
    ensures input.logo.None? ==> r.logo == row.logo
  {
    row.(title := if input.title != "" then input.title else row.title,
         description := if input.description != "" then input.description else row.description,
         logo := input.logo.GetOr(row.logo))
  }

  /** Updates a band's title, description and logo; the owner or an admin may. */
  function Update(s: Store, env: Env, caller: Option<Id>, bandId: Id, input: UpdateInput): (out: Response<Band>)
    ensures out.result.Err? ==> out.store == s
    ensures caller.None? ==> out.result == Err(Forbidden)
    ensures caller.Some? && FindBand(s, env, bandId).Err? ==> out.result == Err(FindBand(s, env, bandId).error)
    ensures Unauthorized(s, env, caller, bandId) ==> out.result == Err(Forbidden)
    ensures out.result.Ok? <==> Authorized(s, env, caller, bandId) && SaveBandOp !in env.failing
    ensures Authorized(s, env, caller, bandId) && SaveBandOp in env.failing ==> out.result == Err(StoreFailure)
    ensures out.result.Ok? ==>
      var old_ := FindBand(s, env, bandId).value;
      var row := out.result.value.row;
      && out.result.value.members == old_.members
      && row.id == bandId && row.ownerId == old_.row.ownerId
      && row.title == (if input.title != "" then input.title else old_.row.title)
      && row.description == (if input.description != "" then input.description else old_.row.description)
      && row.logo == (if input.logo.Some? then input.logo.value else old_.row.logo)
      && out.store == s.(bands := ReplaceWhere(s.bands, (x: BandRow) => x.id == bandId, row))
  {
    if caller.None? then Response(Err(Forbidden), s)
    else match FindBand(s, env, bandId)
      case Err(e) => Response(Err(e), s)
      case Ok(b) =>
        if !HasAuthority(b, caller.value) then Response(Err(Forbidden), s)
        else
          var saved := SaveBand(s, env, Merge(b.row, input));
          match saved.result
          case Err(e) => Response(Err(e), saved.store)
          case Ok(row) => Response(Ok(Band(row, b.members)), saved.store)
  }

  /** Promotes or demotes a member row; the owner or an admin of the band in the path may. */
  function UpdateMember(s: Store, env: Env, caller: Option<Id>, bandId: Id, memberId: Id, role: string)
    : (out: Response<Member>)
    ensures out.result.Err? ==> out.store == s
    ensures caller.None? ==> out.result == Err(Forbidden)
    ensures caller.Some? && FindBand(s, env, bandId).Err? ==> out.result == Err(FindBand(s, env, bandId).error)
    ensures caller.Some? && FindBand(s, env, bandId).Ok? && FindMember(s, env, memberId).Err? ==>
      out.result == Err(FindMember(s, env, memberId).error)
    ensures Unauthorized(s, env, caller, bandId) && FindMember(s, env, memberId).Ok? ==> out.result == Err(Forbidden)
    ensures Authorized(s, env, caller, bandId) && FindMember(s, env, memberId).Ok? && ParseRole(role).None? ==>
      out.result == Err(BadRequest)
    ensures Authorized(s, env, caller, bandId) && FindMember(s, env, memberId).Ok? && ParseRole(role).Some? &&
            FindMember(s, env, memberId).value.role != ParseRole(role).value && SaveMemberOp in env.failing ==>
      out.result == Err(StoreFailure)
    ensures out.result.Ok? <==>
      && Authorized(s, env, caller, bandId) && FindMember(s, env, memberId).Ok? && ParseRole(role).Some?
      && (FindMember(s, env, memberId).value.role == ParseRole(role).value || SaveMemberOp !in env.failing)
    ensures out.result.Ok? ==>
      var m := FindMember(s, env, memberId).value;
      var r := ParseRole(role).value;
      && Authorized(s, env, caller, bandId)
      && FindMember(s, env, memberId).Ok? && ParseRole(role).Some?
      && out.result.value == m.(role := r)
      && (m.role == r ==> out.store == s)
      && (m.role != r ==> out.store == s.(members := ReplaceWhere(s.members, (x: Member) => x.id == memberId, m.(role := r))))
  {
    if caller.None? then Response(Err(Forbidden), s)
    else match FindBand(s, env, bandId)
      case Err(e) => Response(Err(e), s)
      case Ok(b) =>
        match FindMember(s, env, memberId)
        case Err(e) => Response(Err(e), s)
        case Ok(m) =>
          if !HasAuthority(b, caller.value) then Response(Err(Forbidden), s)
          else match ParseRole(role)
            case None => Response(Err(BadRequest), s)
            case Some(r) =>
              if m.role == r then Response(Ok(m), s)
              else
                var saved := SaveMember(s, env, m.(role := r));
                Response(saved.result, saved.store)
  }

  /** Deletes a member row; the owner or an admin of the band in the path may. */
  function ExpelMember(s: Store, env: Env, caller: Option<Id>, bandId: Id, memberId: Id): (out: Response<()>)
    ensures out.result.Err? ==> out.store == s
    ensures caller.None? ==> out.result == Err(Forbidden)
    ensures caller.Some? && FindBand(s, env, bandId).Err? ==> out.result == Err(FindBand(s, env, bandId).error)
    ensures caller.Some? && FindBand(s, env, bandId).Ok? && FindMember(s, env, memberId).Err? ==>
      out.result == Err(FindMember(s, env, memberId).error)
    ensures Unauthorized(s, env, caller, bandId) && FindMember(s, env, memberId).Ok? ==> out.result == Err(Forbidden)
    ensures out.result.Ok? <==>
      Authorized(s, env, caller, bandId) && FindMember(s, env, memberId).Ok? && DeleteMemberOp !in env.failing
    ensures Authorized(s, env, caller, bandId) && FindMember(s, env, memberId).Ok? && DeleteMemberOp in env.failing ==>
      out.result == Err(StoreFailure)
    ensures out.result.Ok? ==>
      && (forall m :: m in out.store.members <==> m in s.members && m.id != memberId)
      && out.store == s.(members := out.store.members)
  {
    if caller.None? then Response(Err(Forbidden), s)
    else match FindBand(s, env, bandId)
      case Err(e) => Response(Err(e), s)
      case Ok(b) =>
        match FindMember(s, env, memberId)
        case Err(e) => Response(Err(e), s)
        case Ok(m) =>
          if !HasAuthority(b, caller.value) then Response(Err(Forbidden), s)
          else DeleteMember(s, env, m.id)
  }

  /** Deletes a band; only its owner may, an admin may not. Members and requests are kept. */
  function Remove(s: Store, env: Env, caller: Option<Id>, bandId: Id): (out: Response<()>)
    ensures out.result.Err? ==> out.store == s
    ensures caller.None? ==> out.result == Err(Forbidden)
    ensures caller.Some? && FindBand(s, env, bandId).Err? ==> out.result == Err(FindBand(s, env, bandId).error)
    ensures caller.Some? && FindBand(s, env, bandId).Ok? && FindBand(s, env, bandId).value.row.ownerId != caller.value ==>
      out.result == Err(Forbidden)
    ensures out.result.Ok? <==>
      && caller.Some? && FindBand(s, env, bandId).Ok?
      && FindBand(s, env, bandId).value.row.ownerId == caller.value
      && DeleteBandOp !in env.failing
    ensures caller.Some? && FindBand(s, env, bandId).Ok? && FindBand(s, env, bandId).value.row.ownerId == caller.value &&
            DeleteBandOp in env.failing ==>
      out.result == Err(StoreFailure)
    ensures out.result.Ok? ==>
      && (forall b :: b in out.store.bands <==> b in s.bands && b.id != bandId)
      && out.store == s.(bands := out.store.bands)
  {
    if caller.None? then Response(Err(Forbidden), s)
    else match FindBand(s, env, bandId)
      case Err(e) => Response(Err(e), s)
      case Ok(b) =>
        if caller.value != b.row.ownerId then Response(Err(Forbidden), s)
        else DeleteBand(s, env, b.row.id)
  }
}

=== FILE: band_request_repository.dfy ===
/** The band request repository: inserts, filtered lookups and saves over the requests table. */
module BandRequestRepo {
  import opened Results
  import opened Seqs
  import opened BandModels
  import opened BandStore

  /** Inserts `r`; the store assigns the id. */
  function Create(s: Store, env: Env, r: BandRequest): (out: Response<BandRequest>)
    ensures CreateInviteOp in env.failing ==> out == Response(Err(StoreFailure), s)
    ensures CreateInviteOp !in env.failing ==>
      && out.result.Ok?
      && out.result.value == r.(id := s.nextRequestId)
      && out.store.requests == s.requests + [out.result.value]
      && out.store == s.(requests := out.store.requests, nextRequestId := s.nextRequestId + 1)
  {
    if CreateInviteOp in env.failing then Response(Err(StoreFailure), s)
    else
      var row := r.(id := s.nextRequestId);
      Response(Ok(row), s.(requests := s.requests + [row], nextRequestId := s.nextRequestId + 1))
  }

  /** The row the filter `band_id = b AND invited_id = a AND status = 'pending'` selects. */
  function FindByAccountAndBand(s: Store, env: Env, accountId: Id, bandId: Id): (r: Result<BandRequest>)
    ensures r.Ok? ==> r.value in s.requests
    ensures r.Ok? ==> r.value.bandId == bandId && r.value.invitedId == accountId && r.value.status == Pending
    ensures r.Ok? <==> FindPendingInviteOp !in env.failing && HasPendingInvite(s.requests, bandId, accountId)
    ensures r.Err? ==> r.error == (if FindPendingInviteOp in env.failing then StoreFailure else NotFound)
  {
    if FindPendingInviteOp in env.failing then Err(StoreFailure)
    else match FirstWhere(s.requests, (x: BandRequest) => x.bandId == bandId && x.invitedId == accountId && x.status == Pending)
      case Some(x) => Ok(x)
      case None => Err(NotFound)
  }

  /** True iff `lookup` lets the request `r` be found by its id. */
  predicate Visible(lookup: InviteLookup, r: BandRequest) {
    lookup == AnyStatus || r.status == Pending
  }

  /** Looks a request up by id, subject to the lookup's status filter. */
  function FindById(s: Store, env: Env, id: Id): (r: Result<BandRequest>)
    ensures r.Ok? ==> r.value in s.requests && r.value.id == id && Visible(env.inviteLookup, r.value)
    ensures r.Ok? <==>
      FindInviteOp !in env.failing && exists x :: x in s.requests && x.id == id && Visible(env.inviteLookup, x)
    ensures r.Err? ==> r.error == (if FindInviteOp in env.failing then StoreFailure else NotFound)
  {
    if FindInviteOp in env.failing then Err(StoreFailure)
    else match FirstWhere(s.requests, (x: BandRequest) => x.id == id && Visible(env.inviteLookup, x))
      case Some(x) => Ok(x)
      case None => Err(NotFound)
  }

  /** Overwrites the request row that has `r`'s id. */
  function Update(s: Store, env: Env, r: BandRequest): (out: Response<BandRequest>)
    ensures SaveInviteOp in env.failing ==> out == Response(Err(StoreFailure), s)
    ensures SaveInviteOp !in env.failing ==>
      && out.result == Ok(r)
      && out.store == s.(requests := ReplaceWhere(s.requests, (x: BandRequest) => x.id == r.id, r))
  {
    if SaveInviteOp in env.failing then Response(Err(StoreFailure), s)
    else Response(Ok(r), s.(requests := ReplaceWhere(s.requests, (x: BandRequest) => x.id == r.id, r)))
  }

  /** A pending request just inserted for (band, account) is what the pending filter then finds. */
  lemma CreateThenFind(s: Store, env: Env, r: BandRequest)
    requires r.status == Pending
    requires CreateInviteOp !in env.failing && FindPendingInviteOp !in env.failing
    ensures FindByAccountAndBand(Create(s, env, r).store, env, r.invitedId, r.bandId).Ok?
  {
    var row := r.(id := s.nextRequestId);
    assert row in Create(s, env, r).store.requests;
  }
}

=== FILE: band_request_usecase.dfy ===
/** The band request use case: forwards to the repository, and answers "is there a pending invitation?". */
module BandRequestUseCase {
  import opened Results
  import opened BandModels
  import opened BandStore
  import Repo = BandRequestRepo

  /** Persists a new request through the repository. */
  function Create(s: Store, env: Env, r: BandRequest): (out: Response<BandRequest>)
    ensures out.result.Err? <==> CreateInviteOp in env.failing
    ensures out.result.Err? ==> out == Response(Err(StoreFailure), s)
    ensures out.result.Ok? ==>
      && out.result.value == r.(id := s.nextRequestId)
      && out.store == s.(requests := s.requests + [out.result.value], nextRequestId := s.nextRequestId + 1)
  {
    Repo.Create(s, env, r)
  }

  /** Loads a request by id through the repository. */
  function FindById(s: Store, env: Env, id: Id): (r: Result<BandRequest>)
    ensures r.Ok? ==> r.value in s.requests && r.value.id == id
    ensures r.Ok? && env.inviteLookup == PendingOnly ==> r.value.status == Pending
    ensures r.Ok? <==>
      FindInviteOp !in env.failing && exists x :: x in s.requests && x.id == id && Repo.Visible(env.inviteLookup, x)
    ensures r.Err? ==> r.error == (if FindInviteOp in env.failing then StoreFailure else NotFound)
  {
    Repo.FindById(s, env, id)
  }

  /**
   * True iff the repository finds a pending request for (band, account). A repository error,
   * "not found" or otherwise, is discarded and reads as "no invitation".
   */
  function InviteExists(s: Store, env: Env, accountId: Id, bandId: Id): (r: bool)
    ensures r <==> FindPendingInviteOp !in env.failing && HasPendingInvite(s.requests, bandId, accountId)
    ensures FindPendingInviteOp in env.failing ==> !r
  {
    Repo.FindByAccountAndBand(s, env, accountId, bandId).Ok?
  }

  /** Saves a request through the repository. */
  function Update(s: Store, env: Env, r: BandRequest): (out: Response<BandRequest>)
    ensures out.result.Err? <==> SaveInviteOp in env.failing
    ensures out.result.Err? ==> out == Response(Err(StoreFailure), s)
    ensures out.result.Ok? ==> out.result.value == r
    ensures out.result.Ok? ==> out.store == s.(requests := out.store.requests)
    ensures out.result.Ok? ==> |out.store.requests| == |s.requests|
    ensures out.result.Ok? ==> forall i :: 0 <= i < |s.requests| ==>
      out.store.requests[i] == (if s.requests[i].id == r.id then r else s.requests[i])
  {
    Repo.Update(s, env, r)
  }
}

=== FILE: bearer.dfy ===
/**
 * The token clean-up of the logged-in middleware: an "Authorization" header value loses a
 * leading "bearer " (any letter case) before it is parsed as a token. Strings are sequences of
 * characters standing for the header's bytes.
 */
module RequireLoggedIn {
  import opened Results

  /** The prefix the middleware removes, in lower case, and the same word in upper case. */
  const BEARER: string := "bearer "
  const BEARER_UPPER: string := "BEARER "

  /** Lower-cases one ASCII letter and leaves every other character alone. */
  function LowerAscii(c: char): (r: char)
    ensures 'A' <= c <= 'Z' ==> 'a' <= r <= 'z' && r as int - c as int == 32
    ensures !('A' <= c <= 'Z') ==> r == c
  {
    if 'A' <= c <= 'Z' then (c as int + 32) as char else c
  }

  /** Lower-cases every character of a string. */
  function Lower(s: string): (r: string)
    ensures |r| == |s|
    ensures forall i :: 0 <= i < |s| ==> r[i] == LowerAscii(s[i])
  {
    seq(|s|, i requires 0 <= i < |s| => LowerAscii(s[i]))
  }

  /** A seven-character spelling of "bearer " in which each letter may be upper or lower case. */
  predicate IsBearerSpelling(p: string) {
    |p| == 7 && forall i :: 0 <= i < 7 ==> p[i] == BEARER[i] || p[i] == BEARER_UPPER[i]
  }

  /**
   * Removes the first seven characters when the header is longer than six characters and
   * those seven, lower-cased, read "bearer "; otherwise returns the header unchanged.
   * It never fails.
   */
  function StripBearer(tok: string): (r: Result<string>)
    ensures r.Ok?
    ensures |tok| >= 7 && IsBearerSpelling(tok[..7]) ==> tok == tok[..7] + r.value && |r.value| == |tok| - 7
    ensures !(|tok| >= 7 && IsBearerSpelling(tok[..7])) ==> r.value == tok
  {
    if |tok| > 6 && Lower(tok[0..7]) == BEARER then
      LowerIsBearer(tok[0..7]);
      Ok(tok[7..])
    else
      if |tok| >= 7 then
        LowerIsBearer(tok[..7]);
        Ok(tok)
      else
        Ok(tok)
  }

  /** Lower-casing gives "bearer " exactly for the case variants of "bearer ". */
  lemma LowerIsBearer(p: string)
    requires |p| == 7
    ensures Lower(p) == BEARER <==> IsBearerSpelling(p)
  {
    if IsBearerSpelling(p) {
      forall i | 0 <= i < 7 ensures Lower(p)[i] == BEARER[i] {
        assert p[i] == BEARER[i] || p[i] == BEARER_UPPER[i];
      }
    }
    if Lower(p) == BEARER {
      forall i | 0 <= i < 7 ensures p[i] == BEARER[i] || p[i] == BEARER_UPPER[i] {
        assert LowerAscii(p[i]) == BEARER[i];
      }
    }
  }

  /** Any case variant of "bearer " in front of a token is removed, and nothing else is. */
  lemma StripBearerRoundTrip(p: string, t: string)
    requires IsBearerSpelling(p)
    ensures StripBearer(p + t) == Ok(t)
  {
    assert (p + t)[..7] == p;
    assert (p + t)[7..] == t;
  }

  /** The prefix is recognised in any letter case. */
  lemma StripBearerIgnoresCase()
    ensures StripBearer("Bearer abc") == Ok("abc")
    ensures StripBearer("BEARER abc") == Ok("abc")
    ensures StripBearer("bEaReR ") == Ok("")
  {
    StripBearerRoundTrip("Bearer ", "abc");
    StripBearerRoundTrip("BEARER ", "abc");
    StripBearerRoundTrip("bEaReR ", "");
    assert "Bearer abc" == "Bearer " + "abc";
    assert "BEARER abc" == "BEARER " + "abc";
    assert "bEaReR " == "bEaReR " + "";
  }

  /** Only one prefix is removed; the word without its space, the empty header and other schemes are kept. */
  lemma StripBearerKeeps()
    ensures StripBearer("bearer bearer x") == Ok("bearer x")
    ensures StripBearer("bearer") == Ok("bearer")
    ensures StripBearer("") == Ok("")
    ensures StripBearer("Basic abc") == Ok("Basic abc")
  {
    StripBearerRoundTrip("bearer ", "bearer x");
    assert "bearer bearer x" == "bearer " + "bearer x";
    assert "Basic abc"[..7] == "Basic a";
    assert !IsBearerSpelling("Basic a") by {
      assert "Basic a"[1] == 'a';
    }
  }
}

=== FILE: counterexamples.dfy ===
/**
 * Concrete runs showing what the handlers do outside the safe environment, the cross-band
 * reach of the member handlers, and an admin demoting their own row. Each run starts from a
 * small store that satisfies the invariant.
 */
module Counterexamples {
  import opened Results
  import opened Seqs
  import opened BandModels
  import opened BandStore
  import opened Membership
  import opened BandInvariants
  import C = BandController

  /** Accounts 1, 2 and 3; band 1 "Echoes" owned by account 1; no member, no invitation. */
  function Echoes(): Store {
    Store({1, 2, 3}, [BandRow(1, "Echoes", "", DEFAULT_BAND_LOGO, 1)], [], [], 2, 1, 1)
  }

  /** Echoes plus band 2 owned by account 3, in which account 2 is a plain member (member row 1). */
  function TwoBands(): Store {
    Store({1, 2, 3},
          [BandRow(1, "Echoes", "", DEFAULT_BAND_LOGO, 1), BandRow(2, "Rivals", "", DEFAULT_BAND_LOGO, 3)],
          [Member(1, 2, 2, MemberRole, 0)], [], 3, 2, 1)
  }

  /** Echoes in which account 2 is an admin (member row 1). */
  function EchoesWithAdmin(): Store {
    Store({1, 2, 3}, [BandRow(1, "Echoes", "", DEFAULT_BAND_LOGO, 1)], [Member(1, 1, 2, AdminRole, 0)], [], 2, 2, 1)
  }

  lemma EchoesInv()
    ensures Inv(Echoes())
  {
  }

  lemma TwoBandsInv()
    ensures Inv(TwoBands())
  {
    assert TwoBands().members[0].bandId == 2;
  }

  /** In any store with Echoes' band rows, band 1 loads with that store's members. */
  lemma EchoesLoads(s: Store, env: Env)
    requires FindBandOp !in env.failing && s.bands == Echoes().bands
    ensures FindBand(s, env, 1) == Ok(Band(Echoes().bands[0], MembersOf(s.members, 1)))
  {
    assert s.bands[0].id == 1;
  }

  /** With Echoes' band rows and no member row, account 1 invites account 2 unless a pending invitation is found. */
  lemma InviteIntoEchoes(s: Store, env: Env)
    requires s.bands == Echoes().bands && s.members == [] && 2 in s.accounts
    requires FindBandOp !in env.failing && FindAccountOp !in env.failing && CreateInviteOp !in env.failing
    requires !(FindPendingInviteOp !in env.failing && HasPendingInvite(s.requests, 1, 2))
    ensures var r := BandRequest(s.nextRequestId, 1, 2, Pending);
      C.Invite(s, env, Some(1), 1, 2) == Response(Ok(r), s.(requests := s.requests + [r], nextRequestId := s.nextRequestId + 1))
  {
    EchoesLoads(s, env);
    assert MembersOf([], 1) == [];
  }

  /** Account 2 accepts invitation 1 of Echoes: the member row is written first, then the invitation. */
  lemma AcceptInEchoes(s: Store, env: Env, st: RequestStatus)
    requires s.requests == [BandRequest(1, 1, 2, st)]
    requires FindInviteOp !in env.failing && CreateMemberOp !in env.failing
    requires st == Pending || env.inviteLookup == AnyStatus
    ensures var m := Member(s.nextMemberId, 1, 2, MemberRole, env.now);
      var joined := s.(members := s.members + [m], nextMemberId := s.nextMemberId + 1);
      C.RespondInvite(s, env, Some(2), 1, 1, "accepted") ==
        if SaveInviteOp in env.failing then Response(Err(StoreFailure), joined)
        else Response(Ok(()), joined.(requests := [BandRequest(1, 1, 2, Accepted)]))
  {
    var inv := BandRequest(1, 1, 2, st);
    assert C.LoadedInvite(s, env, 1) == Ok(inv) by {
      assert s.requests[0].id == 1;
    }
    assert ParseDecision("accepted") == Some(Accepted);
    var m := Member(s.nextMemberId, 1, 2, MemberRole, env.now);
    var joined := s.(members := s.members + [m], nextMemberId := s.nextMemberId + 1);
    assert CreateMember(s, env, 1, 2, MemberRole, env.now) == Response(Ok(m), joined);
    if SaveInviteOp !in env.failing {
      var saved := C.Requests.Update(joined, env, inv.(status := Accepted));
      assert saved.store.requests == [BandRequest(1, 1, 2, Accepted)];
    }
  }

  /**
   * When the pending-invitation lookup fails, the failure reads as "no invitation", so a second
   * invitation of the same account is created and two are pending at once.
   */
  lemma DuplicateInviteWhenLookupFails()
    ensures var env := Env(0, {FindPendingInviteOp}, PendingOnly);
      var first := C.Invite(Echoes(), env, Some(1), 1, 2);
      var second := C.Invite(first.store, env, Some(1), 1, 2);
      && Inv(Echoes())
      && first.result.Ok? && second.result.Ok?
      && second.store.requests == [BandRequest(1, 1, 2, Pending), BandRequest(2, 1, 2, Pending)]
      && !PendingUnique(second.store)
  {
    var env := Env(0, {FindPendingInviteOp}, PendingOnly);
    EchoesInv();
    InviteIntoEchoes(Echoes(), env);
    var first := C.Invite(Echoes(), env, Some(1), 1, 2);
    InviteIntoEchoes(first.store, env);
    var second := C.Invite(first.store, env, Some(1), 1, 2);
    assert second.store.requests[0].bandId == second.store.requests[1].bandId;
  }

  /**
   * When the lookup by id also returns resolved invitations, an accepted invitation can be
   * accepted again, and the account gets a second member row in the band.
   */
  lemma AcceptTwiceWithAnyStatus()
    ensures var env := Env(0, {}, AnyStatus);
      var s := C.Invite(Echoes(), env, Some(1), 1, 2).store;
      var once := C.RespondInvite(s, env, Some(2), 1, 1, "accepted");
      var twice := C.RespondInvite(once.store, env, Some(2), 1, 1, "accepted");
      && once.result.Ok? && twice.result.Ok?
      && twice.store.members == [Member(1, 1, 2, MemberRole, 0), Member(2, 1, 2, MemberRole, 0)]
      && !MembershipUnique(twice.store)
  {
    var env := Env(0, {}, AnyStatus);
    InviteIntoEchoes(Echoes(), env);
    var s := C.Invite(Echoes(), env, Some(1), 1, 2).store;
    AcceptInEchoes(s, env, Pending);
    var once := C.RespondInvite(s, env, Some(2), 1, 1, "accepted");
    AcceptInEchoes(once.store, env, Accepted);
    var twice := C.RespondInvite(once.store, env, Some(2), 1, 1, "accepted");
    assert twice.store.members[0].accountId == twice.store.members[1].accountId;
  }

  /**
   * When saving the answered invitation fails after the member row was written, the handler
   * reports a store failure but the account is now a member while its invitation is still pending.
   */
  lemma AcceptHalfDone()
    ensures var env := Env(0, {SaveInviteOp}, PendingOnly);
      var s := C.Invite(Echoes(), env, Some(1), 1, 2).store;
      var out := C.RespondInvite(s, env, Some(2), 1, 1, "accepted");
      && Inv(s)
      && out.result == Err(StoreFailure)
      && out.store.members == [Member(1, 1, 2, MemberRole, 0)]
      && out.store.requests == [BandRequest(1, 1, 2, Pending)]
      && !PendingTargetsOutsiders(out.store)
  {
    var env := Env(0, {SaveInviteOp}, PendingOnly);
    InviteIntoEchoes(Echoes(), env);
    var s := C.Invite(Echoes(), env, Some(1), 1, 2).store;
    assert Inv(s) by {
      EchoesInv();
      InvitePreserves(Echoes(), env, Some(1), 1, 2);
    }
    AcceptInEchoes(s, env, Pending);
    var out := C.RespondInvite(s, env, Some(2), 1, 1, "accepted");
    assert out.store.requests[0] in out.store.requests && out.store.members[0] in out.store.members;
  }

  /** The owner of band 1 loads member row 1, which belongs to band 2. */
  lemma ForeignRowLoads(env: Env)
    requires FindBandOp !in env.failing && FindMemberOp !in env.failing
    ensures FindBand(TwoBands(), env, 1).Ok?
    ensures FindBand(TwoBands(), env, 1).value.row.ownerId == 1
    ensures FindMember(TwoBands(), env, 1) == Ok(Member(1, 2, 2, MemberRole, 0))
  {
    assert TwoBands().bands[0].id == 1;
    assert TwoBands().members[0].id == 1;
  }

  /** In any store with the two bands' rows, band 2 loads with that store's members of band 2. */
  lemma RivalsLoads(s: Store, env: Env, row: Member)
    requires FindBandOp !in env.failing && s.bands == TwoBands().bands && s.members == [row] && row.bandId == 2
    ensures FindBand(s, env, 2) == Ok(Band(TwoBands().bands[1], [row]))
  {
    assert s.bands[1] in s.bands && s.bands[1].id == 2;
    assert FindBand(s, env, 2).value.row == s.bands[1];
    assert MembersOf(s.members, 2) == [row] by {
      assert s.members[1..] == [];
    }
  }

  /** The owner of band 1 asks for member row 1 to become an admin; the row is rewritten. */
  lemma PromoteForeignRow(env: Env)
    requires env.failing == {}
    ensures C.UpdateMember(TwoBands(), env, Some(1), 1, 1, "admin") ==
      Response(Ok(Member(1, 2, 2, AdminRole, 0)), TwoBands().(members := [Member(1, 2, 2, AdminRole, 0)]))
  {
    ForeignRowLoads(env);
    assert ParseRole("admin") == Some(AdminRole);
    var s := TwoBands();
    var m' := Member(1, 2, 2, AdminRole, 0);
    assert SaveMember(s, env, m').store.members == [m'];
  }

  /**
   * The member handlers never check that the member row belongs to the band in the path: the
   * owner of band 1 promotes a plain member of band 2, who thereby gains authority over band 2.
   */
  lemma CrossBandPromotion()
    ensures var env := Env(0, {}, PendingOnly);
      var out := C.UpdateMember(TwoBands(), env, Some(1), 1, 1, "admin");
      && Inv(TwoBands())
      && !HasAuthority(FindBand(TwoBands(), env, 2).value, 2)
      && out.result == Ok(Member(1, 2, 2, AdminRole, 0))
      && FindBand(out.store, env, 2).Ok?
      && HasAuthority(FindBand(out.store, env, 2).value, 2)
  {
    var env := Env(0, {}, PendingOnly);
    TwoBandsInv();
    PromoteForeignRow(env);
    RivalsLoads(TwoBands(), env, Member(1, 2, 2, MemberRole, 0));
    RivalsLoads(TwoBands().(members := [Member(1, 2, 2, AdminRole, 0)]), env, Member(1, 2, 2, AdminRole, 0));
  }

  /** Likewise the owner of band 1 expels the member of band 2. */
  lemma CrossBandExpel()
    ensures var env := Env(0, {}, PendingOnly);
      var out := C.ExpelMember(TwoBands(), env, Some(1), 1, 1);
      && out.result.Ok?
      && MembersOf(TwoBands().members, 2) != []
      && MembersOf(out.store.members, 2) == []
  {
    var env := Env(0, {}, PendingOnly);
    ForeignRowLoads(env);
    var s := TwoBands();
    var out := C.ExpelMember(s, env, Some(1), 1, 1);
    assert s.members[0] in MembersOf(s.members, 2);
    assert out.store.members == [] by {
      assert s.members[0].id == 1;
    }
  }

  /** In any store with Echoes' band rows and a single member row of band 1, band 1 loads with that row. */
  lemma EchoesLoadsOne(s: Store, env: Env, row: Member)
    requires FindBandOp !in env.failing && s.bands == Echoes().bands && s.members == [row] && row.bandId == 1
    ensures FindBand(s, env, 1) == Ok(Band(Echoes().bands[0], [row]))
  {
    EchoesLoads(s, env);
    assert MembersOf(s.members, 1) == [row] by {
      assert s.members[1..] == [];
    }
  }

  /**
   * An admin who demotes their own row gets Ok, and the same request repeated is then Forbidden:
   * a role change repeats to the same store but not always to the same answer.
   */
  lemma AdminDemotesSelf()
    ensures var env := Env(0, {}, PendingOnly);
      var once := C.UpdateMember(EchoesWithAdmin(), env, Some(2), 1, 1, "member");
      var twice := C.UpdateMember(once.store, env, Some(2), 1, 1, "member");
      && Inv(EchoesWithAdmin())
      && once.result == Ok(Member(1, 1, 2, MemberRole, 0))
      && once.store == EchoesWithAdmin().(members := [Member(1, 1, 2, MemberRole, 0)])
      && twice == Response(Err(Forbidden), once.store)
  {
    var env := Env(0, {}, PendingOnly);
    var s := EchoesWithAdmin();
    var demoted := Member(1, 1, 2, MemberRole, 0);
    assert Inv(s) by {
      assert s.members[0].bandId == 1;
    }
    EchoesLoadsOne(s, env, s.members[0]);
    assert FindMember(s, env, 1) == Ok(s.members[0]) by {
      assert s.members[0].id == 1;
    }
    assert ParseRole("member") == Some(MemberRole);
    assert SaveMember(s, env, demoted).store.members == [demoted];
    var s' := s.(members := [demoted]);
    EchoesLoadsOne(s', env, demoted);
    assert !HasAuthority(FindBand(s', env, 1).value, 2);
  }
}

=== FILE: invariants.dfy ===
/**
 * The store-wide invariant of the band workflow and its preservation by every handler.
 * It holds only when the environment is "safe": the invitation lookup by id returns pending
 * requests only, the pending-invitation lookup that guards `Invite` does not fail, and the
 * second write of an accepted invitation does not fail. `Counterexamples` shows each
 * condition is needed.
 */
module BandInvariants {
  import opened Results
  import opened Seqs
  import opened BandModels
  import opened BandStore
  import opened Membership
  import Requests = BandRequestUseCase
  import C = BandController

  /** Every id is below its table's counter, and members and requests only point at issued band ids. */
  predicate IdsIssued(s: Store) {
    && (forall b :: b in s.bands ==> b.id < s.nextBandId)
    && (forall m :: m in s.members ==> m.id < s.nextMemberId && m.bandId < s.nextBandId)
    && (forall r :: r in s.requests ==> r.id < s.nextRequestId && r.bandId < s.nextBandId)
  }

  /** Rows appear in the order of their ids, so an id names at most one row. */
  predicate IdsOrdered(s: Store) {
    && StrictlyIncreasing(s.bands, BandRowId)
    && StrictlyIncreasing(s.members, MemberId)
    && StrictlyIncreasing(s.requests, RequestId)
  }

  /** The owner of a band never has a member row in it. */
  predicate OwnerNeverMember(s: Store) {
    forall b, m :: b in s.bands && m in s.members && m.bandId == b.id ==> m.accountId != b.ownerId
  }

  /** An account has at most one member row per band. */
  predicate MembershipUnique(s: Store) {
    forall i, j :: 0 <= i < j < |s.members| ==>
      s.members[i].bandId != s.members[j].bandId || s.members[i].accountId != s.members[j].accountId
  }

  /** An account has at most one pending invitation per band. */
  predicate PendingUnique(s: Store) {
    forall i, j :: 0 <= i < j < |s.requests| && s.requests[i].status == Pending && s.requests[j].status == Pending ==>
      s.requests[i].bandId != s.requests[j].bandId || s.requests[i].invitedId != s.requests[j].invitedId
  }

  /** A pending invitation targets neither a member nor the owner of its band. */
  predicate PendingTargetsOutsiders(s: Store) {
    && (forall r, m :: r in s.requests && m in s.members && r.status == Pending && m.bandId == r.bandId ==>
          m.accountId != r.invitedId)
    && (forall r, b :: r in s.requests && b in s.bands && r.status == Pending && b.id == r.bandId ==>
          b.ownerId != r.invitedId)
  }

  /** The invariant. */
  predicate Inv(s: Store) {
    && IdsIssued(s)
    && IdsOrdered(s)
    && OwnerNeverMember(s)
    && MembershipUnique(s)
    && PendingUnique(s)
    && PendingTargetsOutsiders(s)
  }

  /** The environments under which every handler keeps the invariant. */
  predicate SafeEnv(env: Env) {
    && env.inviteLookup == PendingOnly
    && FindPendingInviteOp !in env.failing
    && SaveInviteOp !in env.failing
  }

  /** The empty store satisfies the invariant. */
  lemma EmptyStoreInv(accounts: set<Id>)
    ensures Inv(EmptyStore(accounts))
  {
  }

  /** The band a lookup finds is the only row with that id. */
  lemma FoundBandIsUnique(s: Store, env: Env, id: Id, b: BandRow)
    requires Inv(s) && FindBand(s, env, id).Ok? && b in s.bands && b.id == id
    ensures b == FindBand(s, env, id).value.row
  {
    KeyIdentifiesElement(s.bands, BandRowId, b, FindBand(s, env, id).value.row);
  }

  /* Transitions of the store, each proved on its own. */

  /** Inserting a band row with a fresh id keeps the invariant. */
  lemma InsertBandKeeps(s: Store, row: BandRow)
    requires Inv(s) && row.id == s.nextBandId
    ensures Inv(s.(bands := s.bands + [row], nextBandId := s.nextBandId + 1))
  {
    AppendIncreasing(s.bands, BandRowId, row);
  }

  /** Inserting a pending request that targets an outsider with no pending request keeps the invariant. */
  lemma InsertPendingKeeps(s: Store, r: BandRequest)
    requires Inv(s)
    requires r.id == s.nextRequestId && r.status == Pending && r.bandId < s.nextBandId
    requires forall m :: m in s.members && m.bandId == r.bandId ==> m.accountId != r.invitedId
    requires forall b :: b in s.bands && b.id == r.bandId ==> b.ownerId != r.invitedId
    requires !HasPendingInvite(s.requests, r.bandId, r.invitedId)
    ensures Inv(s.(requests := s.requests + [r], nextRequestId := s.nextRequestId + 1))
  {
    var s' := s.(requests := s.requests + [r], nextRequestId := s.nextRequestId + 1);
    AppendIncreasing(s.requests, RequestId, r);
    forall i, j | 0 <= i < j < |s'.requests| && s'.requests[i].status == Pending && s'.requests[j].status == Pending
      ensures s'.requests[i].bandId != s'.requests[j].bandId || s'.requests[i].invitedId != s'.requests[j].invitedId
    {
      if j == |s.requests| {
        assert s'.requests[i] in s.requests;
      } else {
        assert s'.requests[i] == s.requests[i] && s'.requests[j] == s.requests[j];
      }
    }
  }

  /** A pending request is the only pending one for its (band, account) pair. */
  lemma PendingIsOnlyOne(s: Store, inv: BandRequest, r: BandRequest)
    requires PendingUnique(s) && inv in s.requests && r in s.requests
    requires inv.status == Pending && r.status == Pending
    requires r.bandId == inv.bandId && r.invitedId == inv.invitedId
    ensures r == inv
  {
    var k :| 0 <= k < |s.requests| && s.requests[k] == inv;
    var i :| 0 <= i < |s.requests| && s.requests[i] == r;
    if i < k {
      assert false;
    } else if k < i {
      assert false;
    }
  }

  /** Resolving the rows with the invitation's id keeps every id, and leaves no pending row with that id. */
  lemma ResolvedRows(rs: seq<BandRequest>, inv: BandRequest, d: RequestStatus)
    requires d != Pending
    ensures var rs' := ReplaceWhere(rs, (x: BandRequest) => x.id == inv.id, inv.(status := d));
      && (forall i :: 0 <= i < |rs'| ==> rs'[i].id == rs[i].id)
      && (forall i :: 0 <= i < |rs'| && rs'[i].status == Pending ==> rs'[i] == rs[i] && rs[i].id != inv.id)
      && (forall r :: r in rs' && r.status == Pending ==> r in rs && r.id != inv.id)
      && (forall r :: r in rs' ==> r in rs || r == inv.(status := d))
  {
    var rs' := ReplaceWhere(rs, (x: BandRequest) => x.id == inv.id, inv.(status := d));
    forall r | r in rs' ensures (r in rs || r == inv.(status := d)) && (r.status == Pending ==> r in rs && r.id != inv.id) {
      var i :| 0 <= i < |rs'| && rs'[i] == r;
    }
  }

  /** Saving a pending request as resolved keeps the invariant when no member row was added. */
  lemma ResolveRequestKeeps(s: Store, inv: BandRequest, d: RequestStatus)
    requires Inv(s) && inv in s.requests && d != Pending
    ensures Inv(s.(requests := ReplaceWhere(s.requests, (x: BandRequest) => x.id == inv.id, inv.(status := d))))
  {
    var rs' := ReplaceWhere(s.requests, (x: BandRequest) => x.id == inv.id, inv.(status := d));
    var s' := s.(requests := rs');
    ResolvedRows(s.requests, inv, d);
    assert IdsIssued(s');
    assert StrictlyIncreasing(rs', RequestId);
    assert PendingUnique(s');
    assert PendingTargetsOutsiders(s');
  }

  /** Appending a member row for a (band, account) pair without a row keeps that pair unique. */
  lemma AppendMemberUnique(s: Store, m: Member)
    requires MembershipUnique(s)
    requires forall x :: x in s.members && x.bandId == m.bandId ==> x.accountId != m.accountId
    ensures MembershipUnique(s.(members := s.members + [m], nextMemberId := s.nextMemberId + 1))
  {
    var ms := s.members + [m];
    forall i, j | 0 <= i < j < |ms|
      ensures ms[i].bandId != ms[j].bandId || ms[i].accountId != ms[j].accountId
    {
      if j == |s.members| {
        assert ms[i] in s.members;
      } else {
        assert ms[i] == s.members[i] && ms[j] == s.members[j];
      }
    }
  }

  /** Adding a member row for an account that is neither owner, member nor pending invitee of the band keeps the invariant. */
  lemma AddOutsiderKeeps(s: Store, m: Member)
    requires Inv(s) && m.id == s.nextMemberId && m.bandId < s.nextBandId
    requires forall x :: x in s.members && x.bandId == m.bandId ==> x.accountId != m.accountId
    requires forall b :: b in s.bands && b.id == m.bandId ==> b.ownerId != m.accountId
    requires forall r :: r in s.requests && r.status == Pending && r.bandId == m.bandId ==> r.invitedId != m.accountId
    ensures Inv(s.(members := s.members + [m], nextMemberId := s.nextMemberId + 1))
  {
    var s' := s.(members := s.members + [m], nextMemberId := s.nextMemberId + 1);
    AppendIncreasing(s.members, MemberId, m);
    AppendMemberUnique(s, m);
    assert IdsIssued(s');
    assert OwnerNeverMember(s');
    assert PendingTargetsOutsiders(s');
  }

  /** Saving a pending request as resolved, after optionally adding its target as a member, keeps the invariant. */
  lemma ResolveKeeps(s: Store, inv: BandRequest, d: RequestStatus, joined: seq<Member>)
    requires Inv(s) && inv in s.requests && inv.status == Pending && d != Pending
    requires joined == [] || joined == [Member(s.nextMemberId, inv.bandId, inv.invitedId, MemberRole, joined[0].joinedAt)]
    ensures Inv(s.(members := s.members + joined,
                   nextMemberId := s.nextMemberId + |joined|,
                   requests := ReplaceWhere(s.requests, (x: BandRequest) => x.id == inv.id, inv.(status := d))))
  {
    var rs' := ReplaceWhere(s.requests, (x: BandRequest) => x.id == inv.id, inv.(status := d));
    var s2 := s.(requests := rs');
    ResolveRequestKeeps(s, inv, d);
    if joined != [] {
      var m := joined[0];
      ResolvedRows(s.requests, inv, d);
      forall r | r in rs' && r.status == Pending && r.bandId == m.bandId ensures r.invitedId != m.accountId {
        if r.invitedId == m.accountId {
          PendingIsOnlyOne(s, inv, r);
        }
      }
      AddOutsiderKeeps(s2, m);
      assert s2.(members := s2.members + [m], nextMemberId := s2.nextMemberId + 1)
        == s.(members := s.members + joined, nextMemberId := s.nextMemberId + |joined|, requests := rs');
    }
  }

  /** Overwriting a band row by one with the same id and owner keeps the invariant. */
  lemma ReplaceBandKeeps(s: Store, old_: BandRow, row: BandRow)
    requires Inv(s) && old_ in s.bands && row.id == old_.id && row.ownerId == old_.ownerId
    ensures Inv(s.(bands := ReplaceWhere(s.bands, (x: BandRow) => x.id == row.id, row)))
  {
    var s' := s.(bands := ReplaceWhere(s.bands, (x: BandRow) => x.id == row.id, row));
    forall i | 0 <= i < |s'.bands| ensures s'.bands[i].id == s.bands[i].id {
    }
    assert StrictlyIncreasing(s'.bands, BandRowId);
    forall b | b in s'.bands ensures exists c :: c in s.bands && c.id == b.id && c.ownerId == b.ownerId {
      var i :| 0 <= i < |s'.bands| && s'.bands[i] == b;
      assert s.bands[i] in s.bands;
      if s.bands[i].id == row.id {
        assert old_.id == b.id && old_.ownerId == b.ownerId;
      }
    }
  }

  /** Overwriting a member row by one with the same id, band and account keeps the invariant. */
  lemma ReplaceMemberKeeps(s: Store, old_: Member, m: Member)
    requires Inv(s) && old_ in s.members
    requires m.id == old_.id && m.bandId == old_.bandId && m.accountId == old_.accountId
    ensures Inv(s.(members := ReplaceWhere(s.members, (x: Member) => x.id == m.id, m)))
  {
    var ms := ReplaceWhere(s.members, (x: Member) => x.id == m.id, m);
    var s' := s.(members := ms);
    forall i | 0 <= i < |s.members| && s.members[i].id == m.id ensures s.members[i] == old_ {
      KeyIdentifiesElement(s.members, MemberId, s.members[i], old_);
    }
    forall i | 0 <= i < |ms|
      ensures ms[i].id == s.members[i].id && ms[i].bandId == s.members[i].bandId && ms[i].accountId == s.members[i].accountId
    {
    }
    assert IdsOrdered(s');
    assert MembershipUnique(s');
    forall x | x in ms ensures x.id < s.nextMemberId && x.bandId < s.nextBandId {
      var i :| 0 <= i < |ms| && ms[i] == x;
      assert s.members[i] in s.members;
    }
    forall b, x | b in s.bands && x in ms && x.bandId == b.id ensures x.accountId != b.ownerId {
      var i :| 0 <= i < |ms| && ms[i] == x;
      assert s.members[i] in s.members;
    }
    forall r, x | r in s.requests && x in ms && r.status == Pending && x.bandId == r.bandId
      ensures x.accountId != r.invitedId
    {
      var i :| 0 <= i < |ms| && ms[i] == x;
      assert s.members[i] in s.members;
    }
  }

  /** Deleting member rows keeps the invariant. */
  lemma DeleteMemberKeeps(s: Store, id: Id)
    requires Inv(s)
    ensures Inv(s.(members := Filter(s.members, (x: Member) => x.id != id)))
  {
    var p := (x: Member) => x.id != id;
    FilterKeepsOrder(s.members, p, (x: Member, y: Member) => MemberId(x) < MemberId(y));
    FilterKeepsOrder(s.members, p, (x: Member, y: Member) => x.bandId != y.bandId || x.accountId != y.accountId);
  }

  /** Deleting band rows keeps the invariant. */
  lemma DeleteBandKeeps(s: Store, id: Id)
    requires Inv(s)
    ensures Inv(s.(bands := Filter(s.bands, (x: BandRow) => x.id != id)))
  {
    FilterKeepsOrder(s.bands, (x: BandRow) => x.id != id, (x: BandRow, y: BandRow) => BandRowId(x) < BandRowId(y));
  }

  /* Every handler keeps the invariant. */

  lemma CreatePreserves(s: Store, env: Env, caller: Option<Id>, input: C.RegisterInput)
    requires Inv(s)
    ensures Inv(C.Create(s, env, caller, input).store)
  {
    var out := C.Create(s, env, caller, input);
    if out.result.Ok? {
      InsertBandKeeps(s, out.result.value.row);
    }
  }

  lemma InvitePreserves(s: Store, env: Env, caller: Option<Id>, bandId: Id, invitedId: Id)
    requires Inv(s) && FindPendingInviteOp !in env.failing
    ensures Inv(C.Invite(s, env, caller, bandId, invitedId).store)
  {
    var out := C.Invite(s, env, caller, bandId, invitedId);
    if out.result.Ok? {
      var r := out.result.value;
      var band := FindBand(s, env, bandId).value;
      forall b | b in s.bands && b.id == r.bandId ensures b.ownerId != r.invitedId {
        FoundBandIsUnique(s, env, bandId, b);
      }
      forall m | m in s.members && m.bandId == r.bandId ensures m.accountId != r.invitedId {
        assert m in band.members;
      }
      InsertPendingKeeps(s, r);
    }
  }

  lemma RespondPreserves(s: Store, env: Env, caller: Option<Id>, bandId: Id, inviteId: Id, status: string)
    requires Inv(s) && SafeEnv(env)
    ensures Inv(C.RespondInvite(s, env, caller, bandId, inviteId, status).store)
  {
    var out := C.RespondInvite(s, env, caller, bandId, inviteId, status);
    if out.result.Ok? {
      var inv := C.LoadedInvite(s, env, inviteId).value;
      var d := ParseDecision(status).value;
      var joined := if d == Accepted then [Member(s.nextMemberId, bandId, caller.value, MemberRole, env.now)] else [];
      ResolveKeeps(s, inv, d, joined);
    }
  }

  lemma UpdatePreserves(s: Store, env: Env, caller: Option<Id>, bandId: Id, input: C.UpdateInput)
    requires Inv(s)
    ensures Inv(C.Update(s, env, caller, bandId, input).store)
  {
    var out := C.Update(s, env, caller, bandId, input);
    if out.result.Ok? {
      ReplaceBandKeeps(s, FindBand(s, env, bandId).value.row, out.result.value.row);
    }
  }

  lemma UpdateMemberPreserves(s: Store, env: Env, caller: Option<Id>, bandId: Id, memberId: Id, role: string)
    requires Inv(s)
    ensures Inv(C.UpdateMember(s, env, caller, bandId, memberId, role).store)
  {
    var out := C.UpdateMember(s, env, caller, bandId, memberId, role);
    if out.store != s {
      ReplaceMemberKeeps(s, FindMember(s, env, memberId).value, out.result.value);
    }
  }

  lemma ExpelMemberPreserves(s: Store, env: Env, caller: Option<Id>, bandId: Id, memberId: Id)
    requires Inv(s)
    ensures Inv(C.ExpelMember(s, env, caller, bandId, memberId).store)
  {
    var out := C.ExpelMember(s, env, caller, bandId, memberId);
    if out.result.Ok? {
      DeleteMemberKeeps(s, memberId);
      assert out.store.members == Filter(s.members, (x: Member) => x.id != memberId);
    }
  }

  lemma RemovePreserves(s: Store, env: Env, caller: Option<Id>, bandId: Id)
    requires Inv(s)
    ensures Inv(C.Remove(s, env, caller, bandId).store)
  {
    var out := C.Remove(s, env, caller, bandId);
    if out.result.Ok? {
      DeleteBandKeeps(s, bandId);
      assert out.store.bands == Filter(s.bands, (x: BandRow) => x.id != bandId);
    }
  }
}

=== FILE: membership.dfy ===
/** Who may see and who may manage a band. */
module Membership {
  import opened BandModels

  /** True iff some member row belongs to account `a`, whatever its role. */
  function IsBandMember(ms: seq<Member>, a: Id): (r: bool)
    ensures r <==> exists m :: m in ms && m.accountId == a
  {
    if |ms| == 0 then false
    else ms[0].accountId == a || IsBandMember(ms[1..], a)
  }

  /** True iff some member row belongs to account `a` and carries the admin role. */
  function IsBandAdmin(ms: seq<Member>, a: Id): (r: bool)
    ensures r <==> exists m :: m in ms && m.accountId == a && m.role == AdminRole
    ensures r ==> IsBandMember(ms, a)
  {
    if |ms| == 0 then false
    else (ms[0].accountId == a && ms[0].role == AdminRole) || IsBandAdmin(ms[1..], a)
  }

  /** The owner and the members of a band may read it. */
  function CanView(b: Band, a: Id): (r: bool)
    ensures r <==> b.row.ownerId == a || exists m :: m in b.members && m.accountId == a
  {
    b.row.ownerId == a || IsBandMember(b.members, a)
  }

  /** The owner and the admin members of a band may manage it; a plain member may not. */
  function HasAuthority(b: Band, a: Id): (r: bool)
    ensures r <==> b.row.ownerId == a || exists m :: m in b.members && m.accountId == a && m.role == AdminRole
    ensures r ==> CanView(b, a)
  {
    b.row.ownerId == a || IsBandAdmin(b.members, a)
  }
}

=== FILE: models.dfy ===
/** The persisted entities of the band domain: bands, their members and membership requests. */
module BandModels {
  import opened Results

  /** A primary key; the source uses Go's unsigned `uint`. */
  type Id = nat

  /** An opaque instant, supplied by the caller in place of `time.Now()`. */
  type Timestamp = int

  /** A member's role. The source stores the strings "member" and "admin" and writes no other. */
  datatype Role = MemberRole | AdminRole

  /** A request's status. The source stores "pending", "accepted" and "denied" and writes no other. */
  datatype RequestStatus = Pending | Accepted | Denied

  /** A row of the members table: one account's participation in one band. */
  datatype Member = Member(id: Id, bandId: Id, accountId: Id, role: Role, joinedAt: Timestamp)

  /** A row of the bands table. */
  datatype BandRow = BandRow(id: Id, title: string, description: string, logo: string, ownerId: Id)

  /** A band as loaded with its members preloaded. */
  datatype Band = Band(row: BandRow, members: seq<Member>)

  /** A row of the band requests table: an invitation of one account into one band. */
  datatype BandRequest = BandRequest(id: Id, bandId: Id, invitedId: Id, status: RequestStatus)

  /** The logo the bands table stores when a band is created without one. */
  const DEFAULT_BAND_LOGO: string :=
    "https://res.cloudinary.com/r4kta/image/upload/v1663515679/playliter/logo/default_band_mklz55.png"

  /** Primary keys of each table, as function values for ordering statements. */
  function BandRowId(b: BandRow): int { b.id }
  function MemberId(m: Member): int { m.id }
  function RequestId(r: BandRequest): int { r.id }

  /** The role named by a request body; only "admin" and "member" are accepted. */
  function ParseRole(s: string): (r: Option<Role>)
    ensures r.Some? <==> s == "admin" || s == "member"
    ensures r == Some(AdminRole) <==> s == "admin"
  {
    if s == "admin" then Some(AdminRole)
    else if s == "member" then Some(MemberRole)
    else None
  }

  /** The answer named by a request body; only "accepted" and "denied" are accepted. */
  function ParseDecision(s: string): (r: Option<RequestStatus>)
    ensures r.Some? <==> s == "accepted" || s == "denied"
    ensures r == Some(Accepted) <==> s == "accepted"
    ensures r != Some(Pending)
  {
    if s == "accepted" then Some(Accepted)
    else if s == "denied" then Some(Denied)
    else None
  }
}

=== FILE: path_params.dfy ===
/**
 * Reading a numeric path parameter (`:id`, `:account_id`, `:invite_id`, `:member_id`): the
 * text is parsed as a signed decimal machine integer of 64 bits and the result is converted
 * to an unsigned one, so a negative number wraps around instead of being refused.
 */
module PathParams {
  import opened Results

  const INT64_MIN: int := -0x8000_0000_0000_0000
  const INT64_MAX: int := 0x7fff_ffff_ffff_ffff
  /** Converting a 64-bit signed integer to an unsigned one keeps its value modulo this. */
  const UINT64_MODULUS: int := 0x1_0000_0000_0000_0000

  predicate IsDigit(c: char) {
    '0' <= c <= '9'
  }

  predicate AllDigits(s: string) {
    forall i :: 0 <= i < |s| ==> IsDigit(s[i])
  }

  /** The value of a string of decimal digits, most significant first; leading zeros are allowed. */
  function DigitsValue(ds: string): nat
    requires AllDigits(ds)
    decreases |ds|
  {
    if ds == [] then 0 else DigitsValue(ds[..|ds| - 1]) * 10 + (ds[|ds| - 1] as int - '0' as int)
  }

  /**
   * Signed decimal parsing on a 64-bit platform: an optional '+' or '-', then one or more
   * digits and nothing else, with the value inside the 64-bit signed range.
   */
  function Atoi(s: string): (r: Option<int>)
    ensures r.Some? ==> INT64_MIN <= r.value <= INT64_MAX
    ensures r.Some? ==> |s| > 0 && (IsDigit(s[0]) || s[0] == '+' || s[0] == '-')
    ensures r.Some? && s[0] == '-' ==> r.value <= 0
    ensures r.Some? && s[0] != '-' ==> r.value >= 0
  {
    var signed := |s| > 0 && (s[0] == '+' || s[0] == '-');
    var digits := if signed then s[1..] else s;
    if digits == [] || !AllDigits(digits) then None
    else
      var v: int := if signed && s[0] == '-' then 0 - DigitsValue(digits) as int else DigitsValue(digits);
      if INT64_MIN <= v <= INT64_MAX then Some(v) else None
  }

  /** Parses a path id; text that is not a number in range is a bad request. */
  function StringToUint(idParam: string): (r: Result<nat>)
    ensures r.Ok? <==> Atoi(idParam).Some?
    ensures r.Err? ==> r.error == BadRequest
    ensures r.Ok? ==> r.value < UINT64_MODULUS
    ensures r.Ok? && Atoi(idParam).value >= 0 ==> r.value == Atoi(idParam).value
    ensures r.Ok? && Atoi(idParam).value < 0 ==> r.value == UINT64_MODULUS + Atoi(idParam).value
  {
    match Atoi(idParam)
    case None => Err(BadRequest)
    case Some(v) => Ok(v % UINT64_MODULUS)
  }

  function Digit(d: nat): (c: char)
    requires d < 10
    ensures IsDigit(c) && c as int - '0' as int == d
  {
    ('0' as int + d) as char
  }

  /** The decimal spelling of a natural number, without leading zeros. */
  function FormatNat(n: nat): (r: string)
    ensures |r| > 0 && AllDigits(r)
    decreases n
  {
    if n < 10 then [Digit(n)] else FormatNat(n / 10) + [Digit(n % 10)]
  }

  /** The decimal spelling of an integer, with '-' before a negative one. */
  function FormatInt(v: int): (r: string)
    ensures |r| > 0
  {
    if v < 0 then "-" + FormatNat(-v) else FormatNat(v)
  }

  /** The digits of a number read back as the number. */
  lemma {:induction false} FormatNatValue(n: nat)
    ensures DigitsValue(FormatNat(n)) == n
    decreases n
  {
    var f := FormatNat(n);
    if n >= 10 {
      FormatNatValue(n / 10);
      assert f[..|f| - 1] == FormatNat(n / 10);
    }
  }

  /** Every 64-bit signed integer survives being printed and parsed. */
  lemma AtoiRoundTrip(v: int)
    requires INT64_MIN <= v <= INT64_MAX
    ensures Atoi(FormatInt(v)) == Some(v)
  {
    var f := FormatInt(v);
    if v < 0 {
      FormatNatValue(-v);
      assert f[0] == '-' && f[1..] == FormatNat(-v);
      assert DigitsValue(f[1..]) == -v;
    } else {
      FormatNatValue(v);
      assert f == FormatNat(v) && IsDigit(f[0]);
    }
  }

  /** A non-negative id below 2^63 written in decimal is read back as itself. */
  lemma StringToUintRoundTrip(n: nat)
    requires n <= INT64_MAX
    ensures StringToUint(FormatNat(n)) == Ok(n)
  {
    AtoiRoundTrip(n);
  }

  /** A negative number is accepted and wraps around to a large unsigned id. */
  lemma NegativeIdWraps(n: nat)
    requires 0 < n <= -INT64_MIN
    ensures StringToUint(FormatInt(-(n as int))) == Ok(UINT64_MODULUS - n)
  {
    AtoiRoundTrip(-(n as int));
  }

  /** 2^63 is outside the signed range and is refused, as is text that is not a bare number. */
  lemma StringToUintRefuses()
    ensures StringToUint(FormatNat(INT64_MAX + 1)) == Err(BadRequest)
    ensures StringToUint("") == Err(BadRequest)
    ensures StringToUint("-") == Err(BadRequest)
    ensures StringToUint("1a") == Err(BadRequest)
    ensures StringToUint(" 1") == Err(BadRequest)
    ensures StringToUint("1_0") == Err(BadRequest)
  {
    FormatNatValue(INT64_MAX + 1);
    assert !AllDigits("1a") by { assert !IsDigit("1a"[1]); }
    assert !AllDigits(" 1") by { assert !IsDigit(" 1"[0]); }
    assert !AllDigits("1_0") by { assert !IsDigit("1_0"[1]); }
  }

  /** A few accepted spellings: a plus sign and leading zeros are fine, and "-1" is the largest id. */
  lemma StringToUintExamples()
    ensures StringToUint("42") == Ok(42)
    ensures StringToUint("+7") == Ok(7)
    ensures StringToUint("007") == Ok(7)
    ensures StringToUint("-1") == Ok(UINT64_MODULUS - 1)
  {
    assert DigitsValue("42") == 42 by { assert "42"[..1] == "4"; assert "4"[..0] == ""; }
    assert "+7"[1..] == "7";
    assert DigitsValue("7") == 7 by { assert "7"[..0] == ""; }
    assert DigitsValue("007") == 7 by { assert "007"[..2] == "00"; assert "00"[..1] == "0"; assert "0"[..0] == ""; }
    assert "-1"[1..] == "1";
    assert DigitsValue("1") == 1 by { assert "1"[..0] == ""; }
  }
}

=== FILE: results.dfy ===
/** Failure-carrying values shared by every layer of the band workflow. */
module Results {

  /** A value that may be absent: Go's nil pointer. */
  datatype Option<+T> = None | Some(value: T) {

    /** The carried value, or `default` when there is none. */
    function GetOr(default: T): T {
      match this
      case Some(v) => v
      case None => default
    }
  }

  /** The kinds of failure a handler reports; the HTTP status codes are left to the host. */
  datatype Error =
    | NotFound      // a band, member, invitation or account does not exist
    | Forbidden     // no caller, or the caller lacks the authority the operation needs
    | BadRequest    // a malformed or rejected input, including a refused invitation
    | StoreFailure  // the persistence layer reported an error other than "not found"

  /** The outcome of one operation: a value, or one of the errors above. */
  datatype Result<+T> = Ok(value: T) | Err(error: Error)
}

=== FILE: scenarios.dfy ===
/** Round trips and compositions of the band handlers. */
module BandScenarios {
  import opened Results
  import opened Seqs
  import opened BandModels
  import opened BandStore
  import opened Membership
  import opened BandInvariants
  import Repo = BandRequestRepo
  import C = BandController

  /** The member rows of account `a` in band `b`. */
  function RowsOf(ms: seq<Member>, b: Id, a: Id): seq<Member> {
    Filter(ms, (m: Member) => m.bandId == b && m.accountId == a)
  }

  /** A new band is owned by its creator, has no member, is visible to the owner and hidden from everyone else. */
  lemma CreateThenGet(s: Store, env: Env, owner: Id, input: C.RegisterInput, stranger: Id)
    requires Inv(s) && env.failing == {}
    requires stranger != owner
    ensures var out := C.Create(s, env, Some(owner), input);
      var id := out.result.value.row.id;
      && out.result.Ok?
      && RowsOf(out.store.members, id, owner) == []
      && MembersOf(out.store.members, id) == []
      && C.Get(out.store, env, Some(owner), id).result.Ok?
      && C.Get(out.store, env, Some(owner), id).result.value.row.ownerId == owner
      && C.Get(out.store, env, Some(stranger), id).result == Err(Forbidden)
  {
    var out := C.Create(s, env, Some(owner), input);
    var row := out.result.value.row;
    FirstIsAppended(s.bands, row, (b: BandRow) => b.id == row.id);
    FilterNone(s.members, (m: Member) => m.bandId == row.id);
    FilterNone(s.members, (m: Member) => m.bandId == row.id && m.accountId == owner);
  }

  /** After a deletion the band is gone: reading it reports NotFound. */
  lemma RemoveThenGet(s: Store, env: Env, caller: Id, bandId: Id, reader: Id)
    requires FindBandOp !in env.failing
    requires C.Remove(s, env, Some(caller), bandId).result.Ok?
    ensures C.Get(C.Remove(s, env, Some(caller), bandId).store, env, Some(reader), bandId).result == Err(NotFound)
  {
  }

  /** What `Invite` creates is what `RespondInvite` then finds. */
  lemma InviteIsFound(s: Store, env: Env, caller: Id, bandId: Id, invitedId: Id)
    requires Inv(s) && env.inviteLookup == PendingOnly && FindInviteOp !in env.failing
    requires C.CanInvite(s, env, Some(caller), bandId, invitedId) && CreateInviteOp !in env.failing
    ensures var out := C.Invite(s, env, Some(caller), bandId, invitedId);
      C.LoadedInvite(out.store, env, out.result.value.id) == Ok(out.result.value)
  {
    var out := C.Invite(s, env, Some(caller), bandId, invitedId);
    var r := out.result.value;
    FirstIsAppended(s.requests, r, (x: BandRequest) => x.id == r.id && Repo.Visible(env.inviteLookup, x));
  }

  /** Under the pending-only lookup an invitation that is no longer pending cannot be answered again. */
  lemma ResolvedInviteNotFound(s: Store, env: Env, caller: Id, bandId: Id, inviteId: Id, status: string)
    requires env.inviteLookup == PendingOnly && FindInviteOp !in env.failing
    requires forall x :: x in s.requests && x.id == inviteId ==> x.status != Pending
    ensures C.RespondInvite(s, env, Some(caller), bandId, inviteId, status) == Response(Err(NotFound), s)
  {
  }

  /** Answering a loaded invitation addressed to the caller: the store after acceptance or denial. */
  lemma AnswerLoaded(s: Store, env: Env, r: BandRequest, status: string)
    requires env.failing == {} && env.inviteLookup == PendingOnly
    requires C.LoadedInvite(s, env, r.id) == Ok(r)
    requires ParseDecision(status).Some?
    requires forall m :: m in s.members ==> !(m.bandId == r.bandId && m.accountId == r.invitedId)
    ensures var out := C.RespondInvite(s, env, Some(r.invitedId), r.bandId, r.id, status);
      var nm := Member(s.nextMemberId, r.bandId, r.invitedId, MemberRole, env.now);
      && out.result.Ok?
      && RowsOf(out.store.members, r.bandId, r.invitedId) == (if status == "accepted" then [nm] else [])
      && (status == "accepted" ==> nm in MembersOf(out.store.members, r.bandId))
      && (status != "accepted" ==> out.store.members == s.members)
      && out.store.bands == s.bands
      && (forall x :: x in out.store.requests && x.id == r.id ==> x.status == ParseDecision(status).value)
  {
    var out := C.RespondInvite(s, env, Some(r.invitedId), r.bandId, r.id, status);
    var nm := Member(s.nextMemberId, r.bandId, r.invitedId, MemberRole, env.now);
    var p := (m: Member) => m.bandId == r.bandId && m.accountId == r.invitedId;
    FilterNone(s.members, p);
    if status == "accepted" {
      assert out.store.members == s.members + [nm];
      FilterConcat(s.members, [nm], p);
      assert Filter([nm], p) == [nm] + Filter([nm][1..], p);
      assert [nm][1..] == [];
    }
    forall x | x in out.store.requests && x.id == r.id ensures x.status == ParseDecision(status).value {
      var i :| 0 <= i < |out.store.requests| && out.store.requests[i] == x;
    }
  }

  /** An account that may be invited has no member row in the band, before or after the invitation. */
  lemma InviteeHasNoRow(s: Store, env: Env, caller: Id, bandId: Id, invitedId: Id)
    requires C.CanInvite(s, env, Some(caller), bandId, invitedId)
    ensures forall m :: m in C.Invite(s, env, Some(caller), bandId, invitedId).store.members ==>
      !(m.bandId == bandId && m.accountId == invitedId)
  {
    var band := FindBand(s, env, bandId).value;
    forall m | m in s.members && m.bandId == bandId ensures m.accountId != invitedId {
      assert m in band.members;
    }
  }

  /**
   * Inviting an account and having it accept yields exactly one member row with the plain role,
   * resolves the invitation as accepted, lets the new member read the band, and makes a second
   * answer to the same invitation NotFound.
   */
  lemma InviteThenAccept(s: Store, env: Env, caller: Id, bandId: Id, invitedId: Id)
    requires Inv(s) && env.failing == {} && env.inviteLookup == PendingOnly
    requires C.CanInvite(s, env, Some(caller), bandId, invitedId)
    ensures var inv := C.Invite(s, env, Some(caller), bandId, invitedId);
      var r := inv.result.value;
      var out := C.RespondInvite(inv.store, env, Some(invitedId), bandId, r.id, "accepted");
      && inv.result.Ok?
      && out.result.Ok?
      && RowsOf(out.store.members, bandId, invitedId) == [Member(s.nextMemberId, bandId, invitedId, MemberRole, env.now)]
      && (forall x :: x in out.store.requests && x.id == r.id ==> x.status == Accepted)
      && C.Get(out.store, env, Some(invitedId), bandId).result.Ok?
      && C.RespondInvite(out.store, env, Some(invitedId), bandId, r.id, "accepted").result == Err(NotFound)
      && C.RespondInvite(out.store, env, Some(invitedId), bandId, r.id, "denied").result == Err(NotFound)
  {
    var inv := C.Invite(s, env, Some(caller), bandId, invitedId);
    var r := inv.result.value;
    InviteIsFound(s, env, caller, bandId, invitedId);
    InviteeHasNoRow(s, env, caller, bandId, invitedId);
    AnswerLoaded(inv.store, env, r, "accepted");
    var out := C.RespondInvite(inv.store, env, Some(invitedId), bandId, r.id, "accepted");
    ResolvedInviteNotFound(out.store, env, invitedId, bandId, r.id, "accepted");
    ResolvedInviteNotFound(out.store, env, invitedId, bandId, r.id, "denied");
  }

  /** Inviting an account and having it deny creates no member row and resolves the invitation as denied. */
  lemma InviteThenDeny(s: Store, env: Env, caller: Id, bandId: Id, invitedId: Id)
    requires Inv(s) && env.failing == {} && env.inviteLookup == PendingOnly
    requires C.CanInvite(s, env, Some(caller), bandId, invitedId)
    ensures var inv := C.Invite(s, env, Some(caller), bandId, invitedId);
      var r := inv.result.value;
      var out := C.RespondInvite(inv.store, env, Some(invitedId), bandId, r.id, "denied");
      && inv.result.Ok?
      && out.result.Ok?
      && RowsOf(out.store.members, bandId, invitedId) == []
      && (forall x :: x in out.store.requests && x.id == r.id ==> x.status == Denied)
      && C.Get(out.store, env, Some(invitedId), bandId).result == Err(Forbidden)
  {
    var inv := C.Invite(s, env, Some(caller), bandId, invitedId);
    var r := inv.result.value;
    InviteIsFound(s, env, caller, bandId, invitedId);
    InviteeHasNoRow(s, env, caller, bandId, invitedId);
    AnswerLoaded(inv.store, env, r, "denied");
  }

  /** A second invitation of the same account into the same band, while the first is pending, is refused. */
  lemma SecondInviteRefused(s: Store, env: Env, caller: Id, bandId: Id, invitedId: Id)
    requires env.failing == {}
    requires C.CanInvite(s, env, Some(caller), bandId, invitedId)
    ensures C.Invite(s, env, Some(caller), bandId, invitedId).result.Ok?
    ensures var s' := C.Invite(s, env, Some(caller), bandId, invitedId).store;
      C.Invite(s', env, Some(caller), bandId, invitedId) == Response(Err(BadRequest), s')
  {
    var out := C.Invite(s, env, Some(caller), bandId, invitedId);
    assert out.result.value in out.store.requests;
    assert FindBand(out.store, env, bandId) == FindBand(s, env, bandId);
  }

  /** After an owner or admin promotes a band's member row, that account holds authority over the band. */
  lemma PromotionGrantsAuthority(s: Store, env: Env, caller: Id, bandId: Id, memberId: Id)
    requires C.Authorized(s, env, Some(caller), bandId)
    requires FindMember(s, env, memberId).Ok? && FindMember(s, env, memberId).value.bandId == bandId
    requires SaveMemberOp !in env.failing
    ensures var out := C.UpdateMember(s, env, Some(caller), bandId, memberId, "admin");
      C.Authorized(out.store, env, Some(out.result.value.accountId), bandId)
  {
    var out := C.UpdateMember(s, env, Some(caller), bandId, memberId, "admin");
    var m' := out.result.value;
    if out.store == s {
      assert m' in s.members;
    } else {
      var i :| 0 <= i < |s.members| && s.members[i] == FindMember(s, env, memberId).value;
      assert out.store.members[i] == m';
    }
    assert m' in MembersOf(out.store.members, bandId);
  }

  /**
   * Repeating a role change writes nothing more, whoever asks. The answer is the same too, as long
   * as the caller still has authority over the band after the first call.
   */
  lemma UpdateMemberIdempotent(s: Store, env: Env, caller: Id, bandId: Id, memberId: Id, role: string)
    ensures var once := C.UpdateMember(s, env, Some(caller), bandId, memberId, role);
      var twice := C.UpdateMember(once.store, env, Some(caller), bandId, memberId, role);
      && twice.store == once.store
      && (C.Authorized(once.store, env, Some(caller), bandId) ==> twice == once)
  {
    var once := C.UpdateMember(s, env, Some(caller), bandId, memberId, role);
    if once.result.Ok? && once.store != s {
      var m' := once.result.value;
      FirstWhereAfterReplace(s.members, (x: Member) => x.id == memberId, m');
      assert FindMember(s, env, memberId).value in s.members;
    }
  }

  /** A row whose id is not the one overwritten survives the overwrite, still in its band. */
  lemma OtherRowSurvives(ms: seq<Member>, memberId: Id, v: Member, a: Member)
    requires a in ms && a.id != memberId
    ensures a in MembersOf(ReplaceWhere(ms, (x: Member) => x.id == memberId, v), a.bandId)
  {
    var i :| 0 <= i < |ms| && ms[i] == a;
    assert ReplaceWhere(ms, (x: Member) => x.id == memberId, v)[i] == a;
  }

  /**
   * With unique member ids, a role change keeps the caller's authority over the band unless it
   * demotes the caller's own row in that band and the caller is not the owner.
   */
  lemma RoleChangeKeepsAuthority(s: Store, env: Env, caller: Id, bandId: Id, memberId: Id, role: string)
    requires StrictlyIncreasing(s.members, MemberId)
    requires C.Authorized(s, env, Some(caller), bandId) && FindMember(s, env, memberId).Ok? && ParseRole(role).Some?
    requires var m := FindMember(s, env, memberId).value;
      || FindBand(s, env, bandId).value.row.ownerId == caller
      || m.accountId != caller || m.bandId != bandId
      || ParseRole(role) == Some(AdminRole)
    ensures C.Authorized(C.UpdateMember(s, env, Some(caller), bandId, memberId, role).store, env, Some(caller), bandId)
  {
    var out := C.UpdateMember(s, env, Some(caller), bandId, memberId, role);
    var b := FindBand(s, env, bandId).value;
    var m := FindMember(s, env, memberId).value;
    if out.store != s && b.row.ownerId != caller {
      var a :| a in b.members && a.accountId == caller && a.role == AdminRole;
      if a.id == memberId {
        // Then `a` is the row being changed, and it already has the admin role: nothing is written.
        KeyIdentifiesElement(s.members, MemberId, a, m);
        assert false;
      }
      var m' := m.(role := ParseRole(role).value);
      assert out.store.members == ReplaceWhere(s.members, (x: Member) => x.id == memberId, m');
      OtherRowSurvives(s.members, memberId, m', a);
    }
  }

  /** After saving a band row, loading the band returns that row with the same members. */
  lemma FindBandAfterSave(s: Store, env: Env, row: BandRow)
    requires FindBandOp !in env.failing
    requires exists b :: b in s.bands && b.id == row.id
    ensures var s' := s.(bands := ReplaceWhere(s.bands, (x: BandRow) => x.id == row.id, row));
      FindBand(s', env, row.id) == Ok(Band(row, MembersOf(s.members, row.id)))
  {
    FirstWhereAfterReplace(s.bands, (x: BandRow) => x.id == row.id, row);
  }

  /** Repeating a band update changes nothing more. */
  lemma UpdateIdempotent(s: Store, env: Env, caller: Id, bandId: Id, input: C.UpdateInput)
    requires C.Authorized(s, env, Some(caller), bandId) && SaveBandOp !in env.failing
    ensures var once := C.Update(s, env, Some(caller), bandId, input);
      C.Update(once.store, env, Some(caller), bandId, input) == once
  {
    var once := C.Update(s, env, Some(caller), bandId, input);
    var b := once.result.value;
    assert FindBand(s, env, bandId).value.row in s.bands;
    FindBandAfterSave(s, env, b.row);
    assert C.Merge(b.row, input) == b.row;
    ReplaceWhereTwice(s.bands, (x: BandRow) => x.id == bandId, b.row);
  }

  /** An update that supplies no field leaves every table as it was. */
  lemma EmptyUpdateChangesNothing(s: Store, env: Env, caller: Id, bandId: Id)
    requires Inv(s)
    requires C.Authorized(s, env, Some(caller), bandId) && SaveBandOp !in env.failing
    ensures C.Update(s, env, Some(caller), bandId, C.UpdateInput("", "", None)).store == s
  {
    var out := C.Update(s, env, Some(caller), bandId, C.UpdateInput("", "", None));
    var row := FindBand(s, env, bandId).value.row;
    assert out.result.value.row == row;
    forall i | 0 <= i < |s.bands| ensures out.store.bands[i] == s.bands[i] {
      if s.bands[i].id == bandId {
        KeyIdentifiesElement(s.bands, BandRowId, s.bands[i], row);
      }
    }
  }
}

=== FILE: seqs.dfy ===
/** Sequence helpers used to model database tables as ordered rows. */
module Seqs {
  import opened Results

  /** The elements of `s` that satisfy `p`, in their original order (a `WHERE` clause). */
  function Filter<T(!new)>(s: seq<T>, p: T -> bool): (r: seq<T>)
    ensures |r| <= |s|
    ensures forall x :: x in r <==> x in s && p(x)
    ensures forall i :: 0 <= i < |r| ==> p(r[i])
  {
    if |s| == 0 then []
    else if p(s[0]) then [s[0]] + Filter(s[1..], p)
    else Filter(s[1..], p)
  }

  /** The first element of `s` that satisfies `p` (a `WHERE … First()` query). */
  function FirstWhere<T(!new)>(s: seq<T>, p: T -> bool): (r: Option<T>)
    ensures r.None? <==> Filter(s, p) == []
    ensures r.Some? ==> r.value == Filter(s, p)[0]
    ensures r.Some? ==> r.value in s && p(r.value)
    ensures r.None? <==> forall x :: x in s ==> !p(x)
  {
    if |s| == 0 then None
    else if p(s[0]) then Some(s[0])
    else FirstWhere(s[1..], p)
  }

  /** The keys `key` assigns to the elements of `s` strictly increase from left to right. */
  predicate StrictlyIncreasing<T>(s: seq<T>, key: T -> int) {
    forall i, j :: 0 <= i < j < |s| ==> key(s[i]) < key(s[j])
  }

  /** Filtering a concatenation filters each part. */
  lemma {:induction false} FilterConcat<T(!new)>(a: seq<T>, b: seq<T>, p: T -> bool)
    ensures Filter(a + b, p) == Filter(a, p) + Filter(b, p)
    decreases |a|
  {
    if |a| == 0 {
      assert a + b == b;
    } else {
      assert (a + b)[1..] == a[1..] + b;
      FilterConcat(a[1..], b, p);
    }
  }

  /** Every element of a filtered tail comes after the head of the input. */
  lemma FilterTailAfterHead<T(!new)>(s: seq<T>, p: T -> bool, rel: (T, T) -> bool)
    requires |s| > 0
    requires forall j :: 0 < j < |s| ==> rel(s[0], s[j])
    ensures forall y :: y in Filter(s[1..], p) ==> rel(s[0], y)
  {
    forall y | y in Filter(s[1..], p) ensures rel(s[0], y) {
      var k :| 0 <= k < |s[1..]| && s[1..][k] == y;
      assert s[k + 1] == y;
    }
  }

  /** Filtering keeps every ordering relation that held between the elements of the input. */
  lemma {:induction false} FilterKeepsOrder<T(!new)>(s: seq<T>, p: T -> bool, rel: (T, T) -> bool)
    requires forall i, j :: 0 <= i < j < |s| ==> rel(s[i], s[j])
    ensures forall i, j :: 0 <= i < j < |Filter(s, p)| ==> rel(Filter(s, p)[i], Filter(s, p)[j])
    decreases |s|
  {
    if |s| > 0 {
      var t := s[1..];
      forall i, j | 0 <= i < j < |t| ensures rel(t[i], t[j]) {
        assert t[i] == s[i + 1] && t[j] == s[j + 1];
      }
      FilterKeepsOrder(t, p, rel);
      var ft := Filter(t, p);
      if p(s[0]) {
        FilterTailAfterHead(s, p, rel);
        var r := [s[0]] + ft;
        assert Filter(s, p) == r;
        forall i, j | 0 <= i < j < |r| ensures rel(r[i], r[j]) {
          assert r[j] == ft[j - 1] && r[j] in ft;
          if i > 0 {
            assert r[i] == ft[i - 1];
          }
        }
      } else {
        assert Filter(s, p) == ft;
      }
    }
  }

  /** A strictly increasing key identifies at most one element. */
  lemma KeyIdentifiesElement<T>(s: seq<T>, key: T -> int, x: T, y: T)
    requires StrictlyIncreasing(s, key)
    requires x in s && y in s && key(x) == key(y)
    ensures x == y
  {
    var i :| 0 <= i < |s| && s[i] == x;
    var j :| 0 <= j < |s| && s[j] == y;
    if i < j {
      assert key(s[i]) < key(s[j]);
    } else if j < i {
      assert key(s[j]) < key(s[i]);
    }
  }

  /** Appending an element whose key exceeds all others keeps the keys increasing. */
  lemma AppendIncreasing<T>(s: seq<T>, key: T -> int, x: T)
    requires StrictlyIncreasing(s, key)
    requires forall y :: y in s ==> key(y) < key(x)
    ensures StrictlyIncreasing(s + [x], key)
  {
    var r := s + [x];
    forall i, j | 0 <= i < j < |r| ensures key(r[i]) < key(r[j]) {
      if j == |s| {
        assert r[i] in s;
      } else {
        assert r[i] == s[i] && r[j] == s[j];
      }
    }
  }

  /** `s` with every element that satisfies `p` overwritten by `v` (a `Save` by primary key). */
  function ReplaceWhere<T>(s: seq<T>, p: T -> bool, v: T): (r: seq<T>)
    ensures |r| == |s|
    ensures forall i :: 0 <= i < |s| ==> r[i] == (if p(s[i]) then v else s[i])
  {
    seq(|s|, i requires 0 <= i < |s| => if p(s[i]) then v else s[i])
  }

  /** After overwriting the matches of `p` by a value that matches `p`, the first match is that value. */
  lemma FirstWhereAfterReplace<T(!new)>(s: seq<T>, p: T -> bool, v: T)
    requires p(v)
    ensures FirstWhere(ReplaceWhere(s, p, v), p) == (if exists x :: x in s && p(x) then Some(v) else None)
  {
    var r := ReplaceWhere(s, p, v);
    var f := FirstWhere(r, p);
    if exists x :: x in s && p(x) {
      var x :| x in s && p(x);
      var i :| 0 <= i < |s| && s[i] == x;
      assert r[i] == v;
      assert f.Some?;
      var k :| 0 <= k < |r| && r[k] == f.value;
      assert p(r[k]);
    } else {
      forall y | y in r ensures !p(y) {
        var k :| 0 <= k < |r| && r[k] == y;
        assert s[k] in s;
      }
    }
  }

  /** Overwriting the same matches twice by the same value is overwriting them once. */
  lemma ReplaceWhereTwice<T>(s: seq<T>, p: T -> bool, v: T)
    requires p(v)
    ensures ReplaceWhere(ReplaceWhere(s, p, v), p, v) == ReplaceWhere(s, p, v)
  {
  }

  /** No element matches, so the filter is empty. */
  lemma FilterNone<T(!new)>(s: seq<T>, p: T -> bool)
    requires forall x :: x in s ==> !p(x)
    ensures Filter(s, p) == []
  {
    if Filter(s, p) != [] {
      assert Filter(s, p)[0] in Filter(s, p);
    }
  }

  /** An element appended after elements that all miss `p` is the first element matching `p`. */
  lemma FirstIsAppended<T(!new)>(s: seq<T>, x: T, p: T -> bool)
    requires forall y :: y in s ==> !p(y)
    requires p(x)
    ensures FirstWhere(s + [x], p) == Some(x)
  {
    FilterConcat(s, [x], p);
    FilterNone(s, p);
    assert Filter([x], p) == [x] + Filter([x][1..], p);
    assert [x][1..] == [];
  }
}

=== FILE: store.dfy ===
/**
 * The relational store behind the band workflow, reduced to three ordered tables and the
 * account ids that exist. Every call a handler makes may fail; `Env` says which ones do.
 */
module BandStore {
  import opened Results
  import opened Seqs
  import opened BandModels

  /** The store calls made by the band handlers. */
  datatype StoreOp =
    | FindBandOp | FindAccountOp | FindMemberOp | FindInviteOp | FindPendingInviteOp
    | CreateBandOp | SaveBandOp | DeleteBandOp
    | CreateMemberOp | SaveMemberOp | DeleteMemberOp
    | CreateInviteOp | SaveInviteOp

  /**
   * How the invitation lookup by id filters rows. Its implementation is not part of this
   * model: `AnyStatus` returns whatever row has the id, `PendingOnly` only a pending one.
   */
  datatype InviteLookup = AnyStatus | PendingOnly

  /** What lies outside the workflow: the clock, the store calls that fail, the invitation lookup. */
  datatype Env = Env(now: Timestamp, failing: set<StoreOp>, inviteLookup: InviteLookup)

  /** The persisted state. Ids are handed out by per-table counters, like auto-increment keys. */
  datatype Store = Store(
    accounts: set<Id>,
    bands: seq<BandRow>,
    members: seq<Member>,
    requests: seq<BandRequest>,
    nextBandId: Id,
    nextMemberId: Id,
    nextRequestId: Id)

  /** The outcome of a handler or store call together with the store it leaves behind. */
  datatype Response<T> = Response(result: Result<T>, store: Store)

  /** The store before any band exists. */
  function EmptyStore(accounts: set<Id>): Store {
    Store(accounts, [], [], [], 1, 1, 1)
  }

  /** True iff `requests` holds a pending invitation of `accountId` into `bandId`. */
  predicate HasPendingInvite(requests: seq<BandRequest>, bandId: Id, accountId: Id) {
    exists r :: r in requests && r.bandId == bandId && r.invitedId == accountId && r.status == Pending
  }

  /** The member rows of one band, in table order (the preloaded `Members` association). */
  function MembersOf(ms: seq<Member>, bandId: Id): (r: seq<Member>)
    ensures forall m :: m in r <==> m in ms && m.bandId == bandId
  {
    Filter(ms, (m: Member) => m.bandId == bandId)
  }

  /** Loads a band with its members. */
  function FindBand(s: Store, env: Env, id: Id): (r: Result<Band>)
    ensures r.Ok? ==> r.value.row in s.bands && r.value.row.id == id
    ensures r.Ok? ==> r.value.members == MembersOf(s.members, id)
    ensures r.Ok? <==> FindBandOp !in env.failing && exists b :: b in s.bands && b.id == id
    ensures r.Err? ==> r.error == (if FindBandOp in env.failing then StoreFailure else NotFound)
  {
    if FindBandOp in env.failing then Err(StoreFailure)
    else match FirstWhere(s.bands, (b: BandRow) => b.id == id)
      case Some(row) => Ok(Band(row, MembersOf(s.members, id)))
      case None => Err(NotFound)
  }

  /** Looks an account up by id. */
  function FindAccount(s: Store, env: Env, id: Id): (r: Result<Id>)
    ensures r.Ok? <==> FindAccountOp !in env.failing && id in s.accounts
    ensures r.Ok? ==> r.value == id
    ensures r.Err? ==> r.error == (if FindAccountOp in env.failing then StoreFailure else NotFound)
  {
    if FindAccountOp in env.failing then Err(StoreFailure)
    else if id in s.accounts then Ok(id)
    else Err(NotFound)
  }

  /** Looks a member row up by its own id, whatever band it belongs to. */
  function FindMember(s: Store, env: Env, id: Id): (r: Result<Member>)
    ensures r.Ok? ==> r.value in s.members && r.value.id == id
    ensures r.Ok? <==> FindMemberOp !in env.failing && exists m :: m in s.members && m.id == id
    ensures r.Err? ==> r.error == (if FindMemberOp in env.failing then StoreFailure else NotFound)
  {
    if FindMemberOp in env.failing then Err(StoreFailure)
    else match FirstWhere(s.members, (m: Member) => m.id == id)
      case Some(m) => Ok(m)
      case None => Err(NotFound)
  }

  /** Inserts a band row; a missing logo takes the column default. */
  function CreateBand(s: Store, env: Env, title: string, description: string, logo: Option<string>, ownerId: Id)
    : (out: Response<BandRow>)
    ensures CreateBandOp in env.failing ==> out == Response(Err(StoreFailure), s)
    ensures CreateBandOp !in env.failing ==>
      && out.result == Ok(BandRow(s.nextBandId, title, description, logo.GetOr(DEFAULT_BAND_LOGO), ownerId))
      && out.store == s.(bands := s.bands + [out.result.value], nextBandId := s.nextBandId + 1)
  {
    if CreateBandOp in env.failing then Response(Err(StoreFailure), s)
    else
      var row := BandRow(s.nextBandId, title, description, logo.GetOr(DEFAULT_BAND_LOGO), ownerId);
      Response(Ok(row), s.(bands := s.bands + [row], nextBandId := s.nextBandId + 1))
  }

  /** Overwrites the band row that has `row`'s id. */
  function SaveBand(s: Store, env: Env, row: BandRow): (out: Response<BandRow>)
    ensures SaveBandOp in env.failing ==> out == Response(Err(StoreFailure), s)
    ensures SaveBandOp !in env.failing ==>
      && out.result == Ok(row)
      && out.store == s.(bands := ReplaceWhere(s.bands, (b: BandRow) => b.id == row.id, row))
  {
    if SaveBandOp in env.failing then Response(Err(StoreFailure), s)
    else Response(Ok(row), s.(bands := ReplaceWhere(s.bands, (b: BandRow) => b.id == row.id, row)))
  }

  /** Deletes the band row with id `id`; its members and requests stay in their tables. */
  function DeleteBand(s: Store, env: Env, id: Id): (out: Response<()>)
    ensures DeleteBandOp in env.failing ==> out == Response(Err(StoreFailure), s)
    ensures DeleteBandOp !in env.failing ==>
      && out.result == Ok(())
      && out.store == s.(bands := Filter(s.bands, (b: BandRow) => b.id != id))
  {
    if DeleteBandOp in env.failing then Response(Err(StoreFailure), s)
    else Response(Ok(()), s.(bands := Filter(s.bands, (b: BandRow) => b.id != id)))
  }

  /** Inserts a member row. */
  function CreateMember(s: Store, env: Env, bandId: Id, accountId: Id, role: Role, joinedAt: Timestamp)
    : (out: Response<Member>)
    ensures CreateMemberOp in env.failing ==> out == Response(Err(StoreFailure), s)
    ensures CreateMemberOp !in env.failing ==>
      && out.result == Ok(Member(s.nextMemberId, bandId, accountId, role, joinedAt))
      && out.store == s.(members := s.members + [out.result.value], nextMemberId := s.nextMemberId + 1)
  {
    if CreateMemberOp in env.failing then Response(Err(StoreFailure), s)
    else
      var m := Member(s.nextMemberId, bandId, accountId, role, joinedAt);
      Response(Ok(m), s.(members := s.members + [m], nextMemberId := s.nextMemberId + 1))
  }

  /** Overwrites the member row that has `m`'s id. */
  function SaveMember(s: Store, env: Env, m: Member): (out: Response<Member>)
    ensures SaveMemberOp in env.failing ==> out == Response(Err(StoreFailure), s)
    ensures SaveMemberOp !in env.failing ==>
      && out.result == Ok(m)
      && out.store == s.(members := ReplaceWhere(s.members, (x: Member) => x.id == m.id, m))
  {
    if SaveMemberOp in env.failing then Response(Err(StoreFailure), s)
    else Response(Ok(m), s.(members := ReplaceWhere(s.members, (x: Member) => x.id == m.id, m)))
  }

  /** Deletes the member row with id `id`. */
  function DeleteMember(s: Store, env: Env, id: Id): (out: Response<()>)
    ensures DeleteMemberOp in env.failing ==> out == Response(Err(StoreFailure), s)
    ensures DeleteMemberOp !in env.failing ==>
      && out.result == Ok(())
      && out.store == s.(members := Filter(s.members, (x: Member) => x.id != id))
  {
    if DeleteMemberOp in env.failing then Response(Err(StoreFailure), s)
    else Response(Ok(()), s.(members := Filter(s.members, (x: Member) => x.id != id)))
  }
}

=== FILE: workflow.dfy ===
/**
 * Sequences of handler calls. Every store reachable from the empty store through safe
 * environments satisfies the invariant: the owner is never a member, an account holds at
 * most one member row and at most one pending invitation per band.
 */
module BandWorkflow {
  import opened Results
  import opened Seqs
  import opened BandModels
  import opened BandStore
  import opened BandInvariants
  import C = BandController

  /** One handler call with its caller, path ids and body. */
  datatype Command =
    | CreateCmd(caller: Option<Id>, register: C.RegisterInput)
    | GetCmd(caller: Option<Id>, bandId: Id)
    | InviteCmd(caller: Option<Id>, bandId: Id, invitedId: Id)
    | RespondCmd(caller: Option<Id>, bandId: Id, inviteId: Id, status: string)
    | UpdateCmd(caller: Option<Id>, bandId: Id, update: C.UpdateInput)
    | UpdateMemberCmd(caller: Option<Id>, bandId: Id, memberId: Id, role: string)
    | ExpelCmd(caller: Option<Id>, bandId: Id, memberId: Id)
    | RemoveCmd(caller: Option<Id>, bandId: Id)

  /** A command together with the environment it runs in. */
  datatype Step = Step(env: Env, cmd: Command)

  /** The store one command leaves behind. */
  function Apply(s: Store, st: Step): Store {
    match st.cmd
    case CreateCmd(caller, input) => C.Create(s, st.env, caller, input).store
    case GetCmd(caller, bandId) => C.Get(s, st.env, caller, bandId).store
    case InviteCmd(caller, bandId, invitedId) => C.Invite(s, st.env, caller, bandId, invitedId).store
    case RespondCmd(caller, bandId, inviteId, status) => C.RespondInvite(s, st.env, caller, bandId, inviteId, status).store
    case UpdateCmd(caller, bandId, input) => C.Update(s, st.env, caller, bandId, input).store
    case UpdateMemberCmd(caller, bandId, memberId, role) => C.UpdateMember(s, st.env, caller, bandId, memberId, role).store
    case ExpelCmd(caller, bandId, memberId) => C.ExpelMember(s, st.env, caller, bandId, memberId).store
    case RemoveCmd(caller, bandId) => C.Remove(s, st.env, caller, bandId).store
  }

  /** The store a sequence of commands leaves behind, applied from first to last. */
  function Run(s: Store, steps: seq<Step>): Store
    decreases |steps|
  {
    if |steps| == 0 then s else Run(Apply(s, steps[0]), steps[1..])
  }

  /** Each handler, in a safe environment, keeps the invariant. */
  lemma ApplyPreservesInv(s: Store, st: Step)
    requires Inv(s) && SafeEnv(st.env)
    ensures Inv(Apply(s, st))
  {
    var env := st.env;
    match st.cmd {
      case GetCmd(caller, bandId) =>
        assert Apply(s, st) == s;
      case CreateCmd(caller, input) =>
        CreateStepKeeps(s, env, caller, input);
      case InviteCmd(caller, bandId, invitedId) =>
        InviteStepKeeps(s, env, caller, bandId, invitedId);
      case RespondCmd(caller, bandId, inviteId, status) =>
        RespondStepKeeps(s, env, caller, bandId, inviteId, status);
      case UpdateCmd(caller, bandId, input) =>
        UpdateStepKeeps(s, env, caller, bandId, input);
      case UpdateMemberCmd(caller, bandId, memberId, role) =>
        UpdateMemberStepKeeps(s, env, caller, bandId, memberId, role);
      case ExpelCmd(caller, bandId, memberId) =>
        ExpelStepKeeps(s, env, caller, bandId, memberId);
      case RemoveCmd(caller, bandId) =>
        RemoveStepKeeps(s, env, caller, bandId);
    }
  }

  lemma CreateStepKeeps(s: Store, env: Env, caller: Option<Id>, input: C.RegisterInput)
    requires Inv(s) && SafeEnv(env)
    ensures Inv(Apply(s, Step(env, CreateCmd(caller, input))))
  {
    CreatePreserves(s, env, caller, input);
    CreateApplies(s, env, caller, input);
  }

  lemma CreateApplies(s: Store, env: Env, caller: Option<Id>, input: C.RegisterInput)
    ensures Apply(s, Step(env, CreateCmd(caller, input))) == C.Create(s, env, caller, input).store
  {
  }

  lemma InviteStepKeeps(s: Store, env: Env, caller: Option<Id>, bandId: Id, invitedId: Id)
    requires Inv(s) && SafeEnv(env)
    ensures Inv(Apply(s, Step(env, InviteCmd(caller, bandId, invitedId))))
  {
    InvitePreserves(s, env, caller, bandId, invitedId);
    InviteApplies(s, env, caller, bandId, invitedId);
  }

  lemma InviteApplies(s: Store, env: Env, caller: Option<Id>, bandId: Id, invitedId: Id)
    ensures Apply(s, Step(env, InviteCmd(caller, bandId, invitedId))) == C.Invite(s, env, caller, bandId, invitedId).store
  {
  }

  lemma RespondStepKeeps(s: Store, env: Env, caller: Option<Id>, bandId: Id, inviteId: Id, status: string)
    requires Inv(s) && SafeEnv(env)
    ensures Inv(Apply(s, Step(env, RespondCmd(caller, bandId, inviteId, status))))
  {
    RespondPreserves(s, env, caller, bandId, inviteId, status);
    RespondApplies(s, env, caller, bandId, inviteId, status);
  }

  lemma RespondApplies(s: Store, env: Env, caller: Option<Id>, bandId: Id, inviteId: Id, status: string)
    ensures Apply(s, Step(env, RespondCmd(caller, bandId, inviteId, status))) == C.RespondInvite(s, env, caller, bandId, inviteId, status).store
  {
  }

  lemma UpdateStepKeeps(s: Store, env: Env, caller: Option<Id>, bandId: Id, input: C.UpdateInput)
    requires Inv(s) && SafeEnv(env)
    ensures Inv(Apply(s, Step(env, UpdateCmd(caller, bandId, input))))
  {
    UpdatePreserves(s, env, caller, bandId, input);
    UpdateApplies(s, env, caller, bandId, input);
  }

  lemma UpdateApplies(s: Store, env: Env, caller: Option<Id>, bandId: Id, input: C.UpdateInput)
    ensures Apply(s, Step(env, UpdateCmd(caller, bandId, input))) == C.Update(s, env, caller, bandId, input).store
  {
  }

  lemma UpdateMemberStepKeeps(s: Store, env: Env, caller: Option<Id>, bandId: Id, memberId: Id, role: string)
    requires Inv(s) && SafeEnv(env)
    ensures Inv(Apply(s, Step(env, UpdateMemberCmd(caller, bandId, memberId, role))))
  {
    UpdateMemberPreserves(s, env, caller, bandId, memberId, role);
    UpdateMemberApplies(s, env, caller, bandId, memberId, role);
  }

  lemma UpdateMemberApplies(s: Store, env: Env, caller: Option<Id>, bandId: Id, memberId: Id, role: string)
    ensures Apply(s, Step(env, UpdateMemberCmd(caller, bandId, memberId, role))) == C.UpdateMember(s, env, caller, bandId, memberId, role).store
  {
  }

  lemma ExpelStepKeeps(s: Store, env: Env, caller: Option<Id>, bandId: Id, memberId: Id)
    requires Inv(s) && SafeEnv(env)
    ensures Inv(Apply(s, Step(env, ExpelCmd(caller, bandId, memberId))))
  {
    ExpelMemberPreserves(s, env, caller, bandId, memberId);
    ExpelApplies(s, env, caller, bandId, memberId);
  }

  lemma ExpelApplies(s: Store, env: Env, caller: Option<Id>, bandId: Id, memberId: Id)
    ensures Apply(s, Step(env, ExpelCmd(caller, bandId, memberId))) == C.ExpelMember(s, env, caller, bandId, memberId).store
  {
  }

  lemma RemoveStepKeeps(s: Store, env: Env, caller: Option<Id>, bandId: Id)
    requires Inv(s) && SafeEnv(env)
    ensures Inv(Apply(s, Step(env, RemoveCmd(caller, bandId))))
  {
    RemovePreserves(s, env, caller, bandId);
    RemoveApplies(s, env, caller, bandId);
  }

  lemma RemoveApplies(s: Store, env: Env, caller: Option<Id>, bandId: Id)
    ensures Apply(s, Step(env, RemoveCmd(caller, bandId))) == C.Remove(s, env, caller, bandId).store
  {
  }

  /** Any sequence of commands in safe environments keeps the invariant. */
  lemma {:induction false} RunPreservesInv(s: Store, steps: seq<Step>)
    requires Inv(s)
    requires forall i :: 0 <= i < |steps| ==> SafeEnv(steps[i].env)
    ensures Inv(Run(s, steps))
    decreases |steps|
  {
    if |steps| > 0 {
      ApplyPreservesInv(s, steps[0]);
      RunPreservesInv(Apply(s, steps[0]), steps[1..]);
    }
  }

  /** In every reachable store no owner is a member of their band and no (band, account) pair is duplicated. */
  lemma ReachableStoresAreConsistent(accounts: set<Id>, steps: seq<Step>)
    requires forall i :: 0 <= i < |steps| ==> SafeEnv(steps[i].env)
    ensures var s := Run(EmptyStore(accounts), steps);
      && OwnerNeverMember(s)
      && MembershipUnique(s)
      && PendingUnique(s)
      && PendingTargetsOutsiders(s)
  {
    EmptyStoreInv(accounts);
    RunPreservesInv(EmptyStore(accounts), steps);
  }
}
